=== FILE: README.md ===
# duyler/config — a Dafny model of the lazy configuration resolver

This project models the core of `duyler/config`, a PHP configuration loader.
`FileConfig` discovers PHP files under a configuration directory. Each file
returns an array, and the values in that array may call `$config->get(...)`
on other files or `$config->env(...)`. The resolver:

- loads every discovered file once at construction, caching non-empty arrays
  under the file's dotted name (`app/db.php` becomes `app.db`);
- answers a `get` from that cache. On a miss it records the access in a main
  log or a repeated log, compares the sizes of the two logs, and then either
  answers with the caller's default or reads the file;
- after the scan, replays every file named in the repeated log through a
  proxy resolver. The proxy answers the repeated key names from a snapshot of
  the cache; everything else goes to the real resolver. Then both logs are
  reset.

Beside it sit `env` (typed coercion over an environment snapshot), `path`,
`writeFile`, and the small `Config` class over a `FileConfigProvider`.

Files:

- `values.dfy`: the scalar values (`Value`) and `Option`.
- `php_strings.dfy`: `str_replace`, `explode`/`implode` and `rtrim`/`ltrim`/`trim`.
- `config_paths.dfy`: the name/path mappings and `path`.
- `env.dfy`: the environment snapshot and the coercion.
- `access_log.dfy`: the two logs, the recording of an access, and the guard.
- `loader.dfy`: class `FileConfig`, with the cache and the logs as fields.
- `write_back.dfy`: `writeFile` over a file-system value.
- `provider.dfy`, `config.dfy`: `FileConfigProvider::getAll` and `Config::get`.

A configuration file's content is a sequence of `(key, Entry)` pairs. An
entry is a literal, a reference `(file, key, default)` resolved through `get`,
or an environment lookup. The environment, the discovered paths, the content
stored at each path, and the set of strings the existence test accepts are
all constructor inputs. The project root is one too. Evaluation of nested
reads is bounded by a `fuel` argument.

Behaviour of the code worth knowing:

- An access counts as repeated when its key NAME was already seen in the main
  log, whatever the file (`src/FileConfig.php:111`). It is not keyed by the
  (file, key) pair.
- `readFile` tests existence on the dotted name, not on the path it built
  (`src/FileConfig.php:139`). So an uncached `get` reads a file only when a
  file named exactly like the dotted name exists in the working directory.
  `Loader.GetMissingFile` states the consequence: otherwise the caller's
  default is returned.
- A cache hit for a missing key is null, never the caller's default. This
  holds for `get('app', 'missing', 'default')` once `app` is loaded
  (`Loader.CachedFileScenario`).
- `env` in non-raw mode with a missing key does not fail. PHP warns, the
  value is null, and the `match` falls through to the default arm.
- Cached arrays are not immutable. The repair pass overwrites the entry of
  each replayed file, and a reentrant read can overwrite an entry cached
  during the same read.
- The guard compares counts. It is not a cycle check (`AccessLog.GuardLapses`).

## Model

| member | source | states |
|---|---|---|
| `PhpStrings.ReplaceAll` | src/FileConfig.php:60 | `str_replace` with an empty pattern leaves the subject unchanged; its left-to-right, non-overlapping scan is stated by the three lemmas below |
| `PhpStrings.ReplaceAllSkip` | src/FileConfig.php:60 | a prefix holding no occurrence of the pattern is copied unchanged and the replacement continues after it |
| `PhpStrings.ReplaceAllPrefix` | src/FileConfig.php:60 | an occurrence at the start is replaced and the scan resumes after it |
| `PhpStrings.ReplaceAllAbsent` | src/FileConfig.php:60 | a subject without an occurrence of the pattern is returned unchanged |
| `PhpStrings.ReplaceCharInverse` | src/FileConfig.php:137 | turning `a` into `b` and back is the identity when `b` did not occur, and no `a` is left |
| `PhpStrings.ReplaceCharAt` | src/FileConfig.php:137 | replacing one character by another (`str_replace('.', '/', ...)`) keeps the length and substitutes pointwise |
| `PhpStrings.Explode` | src/FileConfig.php:205 | `explode` yields at least one piece, no piece holds the separator, and it yields exactly `[s]` when the separator is absent and at least two pieces when it is present |
| `PhpStrings.ImplodeExplode` | src/FileConfig.php:205-208 | splitting on `.` and joining with `/` equals replacing every `.` by `/` (this carries `Implode`'s contract) |
| `PhpStrings.ImplodeSplitLast` | src/FileConfig.php:205-208 | joining all pieces but the last, then the separator and the last piece, joins all pieces (the directory and file name `writeFile` builds) |
| `PhpStrings.RTrim` | src/FileConfig.php:250 | `rtrim` gives the prefix that does not end in the character, and only that character was cut off |
| `PhpStrings.LTrim` | src/FileConfig.php:250 | `ltrim` gives the suffix that does not start with the character, and only that character was cut off |
| `PhpStrings.Trim` | src/FileConfig.php:250 | `trim` gives the middle of the string: neither end of the result is the character, and everything cut before and after it was that character |
| `ConfigPaths.ConfigPath` | src/FileConfig.php:137 | the read path of a name starts with `configDir/`, ends with `.php` and is five characters longer than the two parts |
| `ConfigPaths.NameRoundTrip` | src/FileConfig.php:59-60 | for `configDir/rel.php` with no `.` and no `configDir/` in `rel`: the file passes the PHP test, its derived name is `rel` with `/` turned into `.`, and the read path of that name (line 137) is the original path (this carries the contracts of `DeriveName` and `IsPhpFile`) |
| `ConfigPaths.WriteTargetIsConfigPath` | src/FileConfig.php:205-233 | for a name with a dot, `writeFile`'s target string is the read path of the name; without a dot it is `configDir//name.php` (this carries `WriteTarget`'s contract) |
| `ConfigPaths.WriteTargetSameFile` | src/FileConfig.php:205-235 | for every name, the file `writeFile`'s target names is the file the name's read path names; the doubled `/` of an undotted name changes nothing |
| `ConfigPaths.CanonicalSingleSlashes` | src/FileConfig.php:233-235 | the file a path names (as `is_file` resolves it) has no two adjacent `/` |
| `ConfigPaths.CanonicalDoubleSlash` | src/FileConfig.php:233-235 | `a//b` and `a/b` name the same file |
| `ConfigPaths.Path` | src/FileConfig.php:248-251 | `path(dir)` is the root without trailing `/`, exactly one `/` at the join, and ends with `dir` trimmed of `/` |
| `ConfigPaths.PathEndsWithSubdir` | tests/Unit/FileConfigTest.php:83-88 | `path('test')` ends with `test` |
| `Env.Snapshot` | src/FileConfig.php:34 | the snapshot holds the keys of both sources, and the env file wins on a conflict |
| `Env.Coerce` | src/FileConfig.php:191-199 | null only from `"null"`, true only from `"true"`, false only from `"false"`, an int exactly for numeric strings (its `intval`), otherwise the unchanged string |
| `Env.Lookup` | src/FileConfig.php:185-199 | a missing key yields the default in both modes; raw mode returns the stored string, non-raw mode its coercion |
| `Env.IntVal` | src/FileConfig.php:196 | `intval` of a numeric string lies in the 64-bit range |
| `Env.Saturate` | src/FileConfig.php:196 | an out-of-range number clamps to the nearest 64-bit bound, and an in-range one is kept |
| `Env.Digits` | src/FileConfig.php:196 | the decimal rendering of a natural number is a digit string that denotes it |
| `Env.DecimalRoundTrip` | src/FileConfig.php:191-196 | an integer in the 64-bit range written as an environment string is numeric and coerces back to that integer |
| `Env.CoercionExamples` | tests/Unit/FileConfigTest.php:54-72 | `"true"`, `"false"`, `"null"`, `"42"`, `"abc"` coerce to true, false, null, 42, `"abc"`; raw mode keeps `"true"` a string |
| `AccessLog.PutAssigns` | src/FileConfig.php:112-115 | assigning `named[file] = key` updates an existing file in place or appends a new one, maps the file to the key, adds the key to the key names, and keeps files unique (this carries `Put`) |
| `AccessLog.RecordRoutes` | src/FileConfig.php:111-117 | exactly one access is appended to exactly one index, as `file.key`; it goes to the repeated log iff the key name was seen in the main log's names or index (`Seen`); that log's names become the `Put` of the file and key, and the other log is unchanged (this carries `Record`) |
| `AccessLog.RecordAll` | src/FileConfig.php:111-117 | recording a sequence of accesses in order adds exactly one index entry per access, and each log's old index stays a prefix of its new one |
| `AccessLog.RecordAllAppend` | src/FileConfig.php:111-117 | recording `x` and then `y` is recording `x + y`, so the logs after any run of reads depend only on the sequence of uncached accesses |
| `AccessLog.RecordKeepsWellFormed` | src/FileConfig.php:111-117 | recording keeps each log with unique files, no more files than accesses, and each file's last key among the accesses |
| `AccessLog.RecordAllKeepsWellFormed` | src/FileConfig.php:111-117 | recording any sequence of accesses keeps both logs well formed |
| `AccessLog.FreshPassGuard` | src/FileConfig.php:119-122 | in a fresh pass the first access is read, and a second access of the same key name from any file is answered with the default (this lemma, `GuardLapses` and `TwoFileCycleBreaks` carry `Guard`) |
| `AccessLog.GuardLapses` | src/FileConfig.php:119-122 | once the repeated log has overtaken the main log, a third access of the same key name from another file is read again |
| `AccessLog.TwoFileCycleBreaks` | src/FileConfig.php:105-125 | for two files referring to each other, accesses b.y, a.x, b.y are read and the fourth, a.x, is cut short |
| `Loader.CacheHit` | src/FileConfig.php:107-108 | a cache hit returns the stored value for a present key and null for a missing one, never the caller's default |
| `Loader.Assemble` | src/FileConfig.php:143-150 | the array a file returns has exactly the keys of its entries |
| `Loader.AssembleLast` | src/FileConfig.php:143-150 | a key's value in the returned array is that of its last entry |
| `Loader.ProxyAnswer` | src/FileConfig.php:159-163 | the proxy answers the snapshot's non-null value for a cached file and key, and the default in every other case (`??`) |
| `Loader.FileConfig.EvalContentSpec` | src/FileConfig.php:143-150 | evaluating a file's entries in order resolves exactly one value per entry, keeps every array cached before unchanged, and an empty file yields the empty array with no access and nothing changed |
| `Loader.FileConfig.EvalContentSpecEvaluates` | src/FileConfig.php:143-150 | the array is the file's keys mapped to their last entries' resolved values; literals stand for themselves, env entries are looked up, references the proxy intercepts are answered from its snapshot, and every other reference into a file cached when evaluation began resolves to that cached value or null |
| `Loader.FileConfig.EvalContentLogs` | src/FileConfig.php:111-117 | the logs after evaluating a file are the logs before with exactly the evaluation's uncached accesses recorded, in order |
| `Loader.FileConfig.EvalContent` | src/FileConfig.php:143-150 | the returned array and the new cache and logs are exactly what `EvalContentSpec` yields from the state at the call, so the three rows above hold for the method |
| `Loader.FileConfig.EvalEntrySpec` | src/FileConfig.php:143-150 | resolving one entry keeps every cached array unchanged |
| `Loader.FileConfig.EvalEntrySpecSettled` | src/FileConfig.php:143-150 | literals and env entries resolve as `Settled` states with no access and nothing changed; an intercepted reference is answered from the snapshot with nothing changed; any other reference into a cached file is answered from the cache |
| `Loader.FileConfig.EvalEntryLogs` | src/FileConfig.php:111-117 | the logs after resolving an entry record exactly its accesses, in order |
| `Loader.FileConfig.EvalEntry` | src/FileConfig.php:143-150 | the value and the new cache and logs are exactly what `EvalEntrySpec` yields from the state at the call |
| `Loader.FileConfig.ProxyGetSpec` | src/FileConfig.php:157-166 | the proxy's `get` keeps every cached array unchanged |
| `Loader.FileConfig.ProxyGetLogs` | src/FileConfig.php:157-166 | the logs after the proxy's `get` record exactly its accesses, in order (none for an intercepted key) |
| `Loader.FileConfig.ProxyGet` | src/FileConfig.php:157-166 | the value and the new cache and logs are exactly what `ProxyGetSpec` yields: an intercepted key name is answered by `ProxyAnswer`, any other key by `get` |
| `Loader.FileConfig.GetSpec` | src/FileConfig.php:105-133 | `get` keeps every cached array unchanged |
| `Loader.FileConfig.GetSpecOutcome` | src/FileConfig.php:105-133 | a cache hit answers the cached value or null with nothing changed and no access; a miss records `(file, key)` as its first access; under the guard (checked after recording) or when `readFile` evaluates nothing it answers the default with only that access recorded and the cache unchanged; otherwise the whole array read is cached and the key's value answered when the array holds the key, else the default is answered; a non-default answer always leaves the file cached with that value |
| `Loader.FileConfig.GetLogs` | src/FileConfig.php:105-133 | the logs after `get` record exactly its accesses, in order: its own miss followed by those of the nested read |
| `Loader.FileConfig.Get` | src/FileConfig.php:105-133 | the value and the new cache and logs are exactly what `GetSpec` yields from the state at the call |
| `Loader.FileConfig.ReadFileSpec` | src/FileConfig.php:135-151 | reading keeps every cached array; a name failing the existence test, no fuel, or an empty file at the name's path yields the empty array with no access and nothing changed |
| `Loader.FileConfig.ReadFileLogs` | src/FileConfig.php:135-151 | the logs after reading a file record exactly its accesses, in order |
| `Loader.FileConfig.ReadFile` | src/FileConfig.php:135-151 | the array and the new cache and logs are exactly what `ReadFileSpec` yields from the state at the call |
| `Loader.FileConfig.LoadDiscoveredSpec` | src/FileConfig.php:57-74 | a non-PHP entry, an already cached name or an empty file changes nothing and records nothing; otherwise the derived name ends cached with exactly the array `EvalContentSpec` yields for the file at the discovered path; every array cached before stays |
| `Loader.FileConfig.LoadDiscoveredLogs` | src/FileConfig.php:57-74 | the logs after loading one discovered entry record exactly its accesses, in order |
| `Loader.FileConfig.LoadDiscovered` | src/FileConfig.php:57-74 | the new cache and logs are exactly what `LoadDiscoveredSpec` yields from the state at the call |
| `Loader.FileConfig.ScanSpec` | src/FileConfig.php:57-74 | loading the discovered entries in order keeps every array cached before |
| `Loader.FileConfig.ScanCaches` | src/FileConfig.php:57-74 | after the scan, every discovered non-empty PHP file is cached under its derived name |
| `Loader.FileConfig.ScanLogs` | src/FileConfig.php:57-74 | the logs after the scan are the logs before with the scan's accesses recorded, in order |
| `Loader.FileConfig.Scan` | src/FileConfig.php:57-74 | the new cache and logs are exactly what `ScanSpec` yields from the state at the call |
| `Loader.FileConfig.ReplaySpec` | src/FileConfig.php:76-82 | the proxy is built from the repeated log and the cache as they stand when this file's replay begins; a non-empty file's array, as `EvalContentSpec` evaluates it through that proxy, overwrites the name's cache entry; an empty file changes nothing; every other cached array stays unchanged |
| `Loader.FileConfig.ReplayLogs` | src/FileConfig.php:76-82 | the logs after replaying one file record exactly its accesses, in order |
| `Loader.FileConfig.Replay` | src/FileConfig.php:76-82 | the new cache and logs are exactly what `ReplaySpec` yields from the state at the call |
| `Loader.FileConfig.ReplayAllSpec` | src/FileConfig.php:76-82 | replaying the files of a named log in order never drops a cached name |
| `Loader.FileConfig.ReplayAllLogs` | src/FileConfig.php:76-82 | the logs after the repair pass record its accesses, in order |
| `Loader.FileConfig.ReplayRepeated` | src/FileConfig.php:76-82 | the new cache and logs are exactly what `ReplayAllSpec` yields for the files of the repeated log as it stood when the pass began |
| `Loader.FileConfig.constructor` | src/FileConfig.php:25-86 | the configuration directory is the root plus the given name and the environment is the merged snapshot; the cache is exactly the scan from an empty state followed by the replay of the files in the repeated log that recording the scan's accesses from empty logs produces; every cached array is non-empty, every discovered non-empty PHP file is cached under its derived name, and both logs are empty at the end |
| `Loader.GetTwice` | tests/Unit/FileConfigTest.php:90-100 | asking twice gives the same value when the file was cached or the first answer did not come from the default; for a cached file neither call changes the cache or the logs |
| `Loader.GetMissingFile` | tests/Unit/FileConfigTest.php:32-37 | an uncached file that fails the existence test yields the caller's default and leaves the cache unchanged |
| `Loader.CachedFileScenario` | tests/Unit/FileConfigTest.php:25-30 | with `app` cached as `['name' => 'TestApp']`, `get('app','name')` is `TestApp` and a missing key is null |
| `WriteBack.WriteFile` | src/FileConfig.php:203-245 | the target directory exists afterwards; when the file the target path names exists the write fails with "already exists" and leaves every file unchanged; otherwise exactly that file is added, holding the data |
| `WriteBack.WriteLandsAtConfigPath` | src/FileConfig.php:205-237 | for every name, the write fails exactly when the file that reading the name loads exists, and a successful write stores the data in that file |
| `WriteBack.WriteUndottedSeesExisting` | src/FileConfig.php:233-237 | an undotted name whose `configDir/name.php` exists is refused with the message naming `configDir//name.php`, and no file changes |
| `WriteBack.WriteIsNotRepeatable` | src/FileConfig.php:233-237 | writing the same name twice fails the second time and keeps the first contents |
| `Provider.ProviderPath` | src/Provider/FileConfigProvider.php:20 | the path is `configDir/`, the name with every `.` turned into `/`, then `.php`; the middle segment holds no `.` |
| `Provider.GetAll` | src/Provider/FileConfigProvider.php:18-27 | a missing file (the one the path names) yields the empty array, an existing one its array |
| `Provider.ProviderPathIsConfigPath` | src/Provider/FileConfigProvider.php:20 | the provider's path for a name equals the resolver's read path |
| `Configs.Config.Get` | src/Config.php:16-25 | the provider's value for the name when present, otherwise null |
| `Configs.GetOverFileProvider` | src/Config.php:16-25 | over the file provider, `get` returns the value stored in the file the name's path names, or null when the file or the key is missing |
| `Configs.ConstantProviderScenario` | tests/unit/TestConfig.php:29-35 | a provider returning `['foo' => 'bar']` gives `get('foo','foo') = 'bar'` |

## Left out

- Project-root detection (`getRootDir`, src/FileConfig.php:88-102) is a filesystem probe. The detected root is a constructor argument.
- Directory iteration, `require`/`include` and dotenv parsing are inputs: a sequence of (path, is-file) pairs, the content at each path, and two environment maps.
- A file's content is limited to literals, `get` references and `env` calls. Nested arrays, floats, other PHP expressions and object construction from config keys are not modelled.
- The external collector (src/FileConfig.php:70, 80) is not modelled.
- Loader.FileConfig.ReadFile: the content of a file is looked up by the path exactly as built. A name with an empty segment (`a..b`) gives a path holding `//`, which the file system reads as `a/b`; the loader does not make that identification (the write path and the provider do, through `ConfigPaths.Canonical`).
- Loader.FileConfig.ReadFile: a name that passes the existence test, but whose path holds no file, is read as an empty array. PHP's `require` would stop with a fatal error there.
- Loader.FileConfig.Replay: likewise, a missing file at the replayed path is read as empty rather than a fatal error.
- Loader.FileConfig.Get: evaluation is bounded by `fuel`. A read nested deeper than the fuel yields an empty array, so unbounded reentrant reads are not modelled.
- AccessLog.Record: `in_array` compares loosely in PHP. The model uses string equality, which differs only for numeric strings such as `"1"` and `"01"`.
- Loader.Intercepts: the same holds for the proxy's `in_array`.
- Loader.FileConfig.LoadDiscovered: numeric-string array keys, which PHP turns into integers, are treated as ordinary strings.
- Env.Coerce: `is_numeric`/`intval` are restricted to an optionally signed string of decimal digits. Strings such as `" 1"`, `"1.5"` or `"1e3"` stay strings in the model, but PHP turns them into integers.
- Env.Lookup: the warning PHP emits for a missing key in non-raw mode is not modelled.
- WriteBack.WriteFile: the serialisation of the data (`var_export` and the bracket rewriting, src/FileConfig.php:214-231) is not modelled; the file stores the data itself. `mkdir` creates missing parent directories too, and the model records only the target directory.
- `ConfigFactory.php` only wires objects together. `ConfigInterface.php`, `ConfigProviderInterface.php` and `ConfigCollectorInterface.php` declare no behaviour.

=== FILE: access_log.dfy ===
/**
  The access bookkeeping of one load pass: a main log of key names asked for
  the first time and a repeated log of key names asked for again, and the
  count comparison that cuts a reentrant resolution short.
 */
module AccessLog {

  /** A PHP array from file name to key name: ordered by first insertion,
      one entry per file. */
  type Named = seq<(string, string)>

  /** One log: the last key asked of each file, and every access as `file.key`. */
  datatype Log = Log(named: Named, index: seq<string>)

  datatype Logs = Logs(main: Log, repeated: Log)

  const EmptyLog: Log := Log([], [])
  const EmptyLogs: Logs := Logs(EmptyLog, EmptyLog)

  /** The `file.key` string an access is indexed under. */
  function Composite(file: string, key: string): string
  {
    file + "." + key
  }

  predicate UniqueFiles(n: Named)
  {
    forall i, j :: 0 <= i < j < |n| ==> n[i].0 != n[j].0
  }

  function Files(n: Named): set<string>
  {
    set i | 0 <= i < |n| :: n[i].0
  }

  /** The key names stored in a named log (what `in_array` searches). */
  function KeyNames(n: Named): set<string>
  {
    set i | 0 <= i < |n| :: n[i].1
  }

  /** The named log maps `file` to `key`. */
  predicate Maps(n: Named, file: string, key: string)
  {
    exists i :: 0 <= i < |n| && n[i] == (file, key)
  }

  /** `$named[$file] = $key`: an existing entry is updated where it stands,
      a new file is appended at the end. */
  function Put(n: Named, file: string, key: string): Named
  {
    if file in Files(n) then
      seq(|n|, i requires 0 <= i < |n| => if n[i].0 == file then (file, key) else n[i])
    else
      n + [(file, key)]
  }

  /** Assigning keeps every other entry where it stands, updates the file's
      entry in place or appends it at the end, maps the file to the key,
      adds the key to the key names, and keeps files unique. */
  lemma PutAssigns(n: Named, file: string, key: string)
    ensures var r := Put(n, file, key);
      && (file in Files(n) ==> |r| == |n|)
      && (file !in Files(n) ==> |r| == |n| + 1 && r[|n|] == (file, key))
      && (forall i :: 0 <= i < |n| ==> r[i] == if n[i].0 == file then (file, key) else n[i])
      && Files(r) == Files(n) + {file}
      && Maps(r, file, key) && key in KeyNames(r)
      && (UniqueFiles(n) ==> UniqueFiles(r))
  {
    var r := Put(n, file, key);
    if file in Files(n) {
      var i :| 0 <= i < |n| && n[i].0 == file;
      assert r[i] == (file, key);
      assert forall f :: f in Files(r) ==> f in Files(n);
      assert forall f :: f in Files(n) ==> f in Files(r) by {
        forall f | f in Files(n) ensures f in Files(r) {
          var j :| 0 <= j < |n| && n[j].0 == f;
          assert r[j].0 == f;
        }
      }
    } else {
      assert r[|n|] == (file, key);
      assert forall f :: f in Files(r) ==> f in Files(n) + {file} by {
        forall f | f in Files(r) ensures f in Files(n) + {file} {
          var j :| 0 <= j < |r| && r[j].0 == f;
          if j < |n| { assert n[j].0 == f; }
        }
      }
      assert forall f :: f in Files(n) ==> f in Files(r) by {
        forall f | f in Files(n) ensures f in Files(r) {
          var j :| 0 <= j < |n| && n[j].0 == f;
          assert r[j].0 == f;
        }
      }
    }
  }

  /** The key name was already asked for in this pass, by file-independent
      name, or equals an indexed `file.key` string. */
  predicate Seen(main: Log, key: string)
  {
    key in KeyNames(main.named) || key in main.index
  }

  /** Recording one uncached access: it goes to the repeated log when its
      key name was seen in the main log, to the main log otherwise. */
  function Record(logs: Logs, file: string, key: string): Logs
  {
    if Seen(logs.main, key) then
      Logs(logs.main, Log(Put(logs.repeated.named, file, key), logs.repeated.index + [Composite(file, key)]))
    else
      Logs(Log(Put(logs.main.named, file, key), logs.main.index + [Composite(file, key)]), logs.repeated)
  }

  /** Recording appends exactly one access, as `file.key`, to exactly one
      index: the repeated log's when the key name was seen in the main log,
      the main log's otherwise; that log's names assign the key to the file,
      and the other log is unchanged. */
  lemma RecordRoutes(logs: Logs, file: string, key: string)
    ensures var r := Record(logs, file, key);
      && |r.main.index| + |r.repeated.index| == |logs.main.index| + |logs.repeated.index| + 1
      && logs.main.index <= r.main.index && logs.repeated.index <= r.repeated.index
      && (Seen(logs.main, key) <==> |r.repeated.index| > |logs.repeated.index|)
      && (Seen(logs.main, key) ==>
            && r.main == logs.main && r.repeated.index[|logs.repeated.index|] == Composite(file, key)
            && Maps(r.repeated.named, file, key) && r.repeated.named == Put(logs.repeated.named, file, key))
      && (!Seen(logs.main, key) ==>
            && r.repeated == logs.repeated && r.main.index[|logs.main.index|] == Composite(file, key)
            && Maps(r.main.named, file, key) && r.main.named == Put(logs.main.named, file, key))
  {
    PutAssigns(logs.repeated.named, file, key);
    PutAssigns(logs.main.named, file, key);
  }

  /** Recording a sequence of uncached accesses, first to last. */
  function RecordAll(logs: Logs, accesses: seq<(string, string)>): (r: Logs)
    ensures |r.main.index| + |r.repeated.index| == |logs.main.index| + |logs.repeated.index| + |accesses|
    ensures logs.main.index <= r.main.index && logs.repeated.index <= r.repeated.index
    decreases |accesses|
  {
    if |accesses| == 0 then logs
    else
      RecordRoutes(logs, accesses[0].0, accesses[0].1);
      RecordAll(Record(logs, accesses[0].0, accesses[0].1), accesses[1..])
  }

  /** Recording one access and then the rest is recording them all. */
  lemma RecordAllCons(logs: Logs, file: string, key: string, rest: seq<(string, string)>)
    ensures RecordAll(logs, [(file, key)] + rest) == RecordAll(Record(logs, file, key), rest)
  {
    assert ([(file, key)] + rest)[1..] == rest;
  }

  /** Recording two runs of accesses one after the other is recording their concatenation. */
  lemma {:induction false} RecordAllAppend(logs: Logs, x: seq<(string, string)>, y: seq<(string, string)>)
    ensures RecordAll(logs, x + y) == RecordAll(RecordAll(logs, x), y)
    decreases |x|
  {
    if |x| == 0 {
      assert x + y == y;
    } else {
      assert (x + y)[0] == x[0] && (x + y)[1..] == x[1..] + y;
      RecordAllAppend(Record(logs, x[0].0, x[0].1), x[1..], y);
    }
  }

  /** The cycle guard: the repeated log has caught up with the main log in
      the number of files or in the number of accesses. */
  predicate Guard(logs: Logs)
  {
    |logs.repeated.named| == |logs.main.named| || |logs.repeated.index| == |logs.main.index|
  }

  /** What the logs of a pass always satisfy: one entry per file, no more
      files than accesses, and every file's last key among the accesses. */
  predicate WellFormed(log: Log)
  {
    && UniqueFiles(log.named)
    && |log.named| <= |log.index|
    && forall i :: 0 <= i < |log.named| ==> Composite(log.named[i].0, log.named[i].1) in log.index
  }

  lemma {:induction false} PutKeepsWellFormed(log: Log, file: string, key: string)
    requires WellFormed(log)
    ensures WellFormed(Log(Put(log.named, file, key), log.index + [Composite(file, key)]))
  {
    var n := Put(log.named, file, key);
    var idx := log.index + [Composite(file, key)];
    forall i | 0 <= i < |n| ensures Composite(n[i].0, n[i].1) in idx {
      if i < |log.named| && log.named[i].0 != file {
        assert n[i] == log.named[i];
        assert Composite(log.named[i].0, log.named[i].1) in log.index;
      } else {
        assert n[i] == (file, key);
        assert idx[|log.index|] == Composite(file, key);
      }
    }
  }

  /** Recording an access keeps both logs well formed. */
  lemma RecordKeepsWellFormed(logs: Logs, file: string, key: string)
    requires WellFormed(logs.main) && WellFormed(logs.repeated)
    ensures WellFormed(Record(logs, file, key).main) && WellFormed(Record(logs, file, key).repeated)
  {
    if Seen(logs.main, key) {
      PutKeepsWellFormed(logs.repeated, file, key);
    } else {
      PutKeepsWellFormed(logs.main, file, key);
    }
  }

  /** Recording `x` and then `y` on the logs `x` left is recording `x + y`. */
  lemma RecordAllChain(logs: Logs, mid: Logs, last: Logs, x: seq<(string, string)>, y: seq<(string, string)>)
    requires mid == RecordAll(logs, x) && last == RecordAll(mid, y)
    ensures last == RecordAll(logs, x + y)
  {
    RecordAllAppend(logs, x, y);
  }

  /** Any sequence of accesses keeps both logs well formed. */
  lemma {:induction false} RecordAllKeepsWellFormed(logs: Logs, accesses: seq<(string, string)>)
    requires WellFormed(logs.main) && WellFormed(logs.repeated)
    ensures WellFormed(RecordAll(logs, accesses).main) && WellFormed(RecordAll(logs, accesses).repeated)
    decreases |accesses|
  {
    if |accesses| > 0 {
      RecordKeepsWellFormed(logs, accesses[0].0, accesses[0].1);
      RecordAllKeepsWellFormed(Record(logs, accesses[0].0, accesses[0].1), accesses[1..]);
    }
  }

  /** In a fresh pass the first uncached access is always read, and a second
      access of the same key name, from any file, is cut short. */
  lemma FreshPassGuard(f: string, g: string, key: string)
    ensures !Guard(Record(EmptyLogs, f, key))
    ensures Guard(Record(Record(EmptyLogs, f, key), g, key))
  {
    var r1 := Record(EmptyLogs, f, key);
    assert key in KeyNames(r1.main.named) by { assert r1.main.named[0] == (f, key); }
  }

  /** The guard is a count comparison, not a cycle check: once the repeated
      log has overtaken the main log, a third access of the same key name
      from another file is read again. */
  lemma GuardLapses()
    ensures var r2 := Record(Record(EmptyLogs, "a", "x"), "a", "x");
            Guard(r2) && !Guard(Record(r2, "b", "x"))
  {
    var r1 := Record(EmptyLogs, "a", "x");
    assert "x" in KeyNames(r1.main.named) by { assert r1.main.named[0] == ("a", "x"); }
    var r2 := Record(r1, "a", "x");
    assert r2.main == r1.main;
    assert "b" !in Files(r2.repeated.named);
  }

  /** Two files referring to each other (`a.x` asks for `b.y`, `b.y` asks for
      `a.x`): the accesses b.y, a.x, b.y are read and the fourth, a.x, is cut
      short by the guard. */
  lemma TwoFileCycleBreaks()
    ensures var r1 := Record(EmptyLogs, "b", "y");
            var r2 := Record(r1, "a", "x");
            var r3 := Record(r2, "b", "y");
            var r4 := Record(r3, "a", "x");
            !Guard(r1) && !Guard(r2) && !Guard(r3) && Guard(r4)
  {
    var r1 := Record(EmptyLogs, "b", "y");
    assert "x" !in KeyNames(r1.main.named) && "x" !in r1.main.index by {
      assert r1.main.named == [("b", "y")];
      assert r1.main.index == [Composite("b", "y")];
      assert |Composite("b", "y")| == 3;
    }
    var r2 := Record(r1, "a", "x");
    assert r2.main.named == [("b", "y"), ("a", "x")];
    assert "y" in KeyNames(r2.main.named) by { assert r2.main.named[0].1 == "y"; }
    assert "x" in KeyNames(r2.main.named) by { assert r2.main.named[1].1 == "x"; }
    var r3 := Record(r2, "b", "y");
    assert r3.main == r2.main;
    assert r3.repeated.named == [("b", "y")];
    var r4 := Record(r3, "a", "x");
    assert r4.repeated.named == [("b", "y"), ("a", "x")];
  }
}

=== FILE: config.dfy ===
/**
  `Config`: a single lookup in whatever array its provider returns for a
  file. It keeps nothing between calls; the provider is fixed at construction.
 */
module Configs {
  import opened Values
  import Provider
  import ConfigPaths

  datatype Config = Config(provider: string -> map<string, Value>)
  {
    /** `get(file, name)`: the provider's value for the name, or null; there
        is no caller default. */
    function Get(configFile: string, configName: string): (r: Value)
      ensures configName in provider(configFile) ==> r == provider(configFile)[configName]
      ensures configName !in provider(configFile) ==> r == Null
    {
      var configArray := provider(configFile);
      if configName in configArray then configArray[configName] else Null
    }
  }

  /** `Config` over the file provider answers with the value stored in the
      file at the name's path, and with null when that file or key is missing. */
  lemma GetOverFileProvider(configDir: string, files: map<string, map<string, Value>>,
                            configFile: string, configName: string)
    ensures var path := ConfigPaths.Canonical(Provider.ProviderPath(configDir, configFile));
      Config((n: string) => Provider.GetAll(configDir, files, n)).Get(configFile, configName)
      == if path in files && configName in files[path] then files[path][configName] else Null
  {
  }

  /** A provider answering `['foo' => 'bar']` for every file gives `bar` for `foo`. */
  lemma ConstantProviderScenario()
    ensures Config((n: string) => map["foo" := Str("bar")]).Get("foo", "foo") == Str("bar")
  {
  }
}

=== FILE: config_paths.dfy ===
/**
  The string mappings between a configuration file's path and its dotted
  logical name, the write-back target of a dotted name, and the project path
  helper.
 */
module ConfigPaths {
  import opened PhpStrings

  /** ASCII `strtolower` on one character. */
  function Lower(c: char): char
  {
    if 'A' <= c <= 'Z' then (c as int + 32) as char else c
  }

  /** The directory walk keeps a file whose extension, lower-cased, is `php`. */
  predicate IsPhpFile(path: string)
  {
    |path| >= 4 && path[|path| - 4] == '.' && Lower(path[|path| - 3]) == 'p'
    && Lower(path[|path| - 2]) == 'h' && Lower(path[|path| - 1]) == 'p'
  }

  /** The dotted name of a discovered file: every `configDir/` and every
      `.php` removed, in that order, then every `/` turned into `.`. */
  function DeriveName(configDir: string, path: string): string
  {
    ReplaceAll(ReplaceAll(ReplaceAll(path, configDir + "/", ""), ".php", ""), "/", ".")
  }

  /** The file that a dotted name is read from: dots become directory separators. */
  function ConfigPath(configDir: string, name: string): (p: string)
    ensures |p| == |configDir| + |name| + 5
    ensures p[..|configDir| + 1] == configDir + "/"
    ensures EndsWith(p, ".php")
  {
    ReplaceCharAt(name, '.', '/');
    configDir + "/" + ReplaceAll(name, ".", "/") + ".php"
  }

  /** An occurrence of a pattern ending in `/` that starts inside `rel` lies
      wholly inside `rel`, since `.php` holds no `/`. */
  lemma NoDirPrefixInRel(rel: string, p: string)
    requires |p| > 0 && p[|p| - 1] == '/'
    requires forall i :: 0 <= i < |rel| ==> !OccursAt(rel, p, i)
    ensures forall i :: 0 <= i < |rel| ==> !OccursAt(rel + ".php", p, i)
  {
    var s := rel + ".php";
    forall i | 0 <= i < |rel| ensures !OccursAt(s, p, i) {
      if i + |p| <= |rel| {
        assert !OccursAt(rel, p, i);
        assert s[i..i + |p|] == rel[i..i + |p|];
      } else if i + |p| <= |s| {
        assert s[i + |p| - 1] == ".php"[i + |p| - 1 - |rel|];
        assert s[i..i + |p|][|p| - 1] == s[i + |p| - 1];
      }
    }
  }

  /** A pattern ending in `/` does not occur in `.php`. */
  lemma NoDirInExtension(p: string)
    requires |p| > 0 && p[|p| - 1] == '/'
    ensures forall i :: 0 <= i < 4 ==> !OccursAt(".php", p, i)
  {
    forall i | 0 <= i < 4 ensures !OccursAt(".php", p, i) {
      if i + |p| <= 4 {
        assert ".php"[i..i + |p|][|p| - 1] == ".php"[i + |p| - 1];
      }
    }
  }

  /** Removing every `configDir/` from `configDir/rel.php` leaves `rel.php`. */
  lemma StripConfigDir(configDir: string, rel: string)
    requires forall i :: 0 <= i < |rel| ==> !OccursAt(rel, configDir + "/", i)
    ensures ReplaceAll(configDir + "/" + rel + ".php", configDir + "/", "") == rel + ".php"
  {
    var dir := configDir + "/";
    assert configDir + "/" + rel + ".php" == dir + (rel + ".php");
    ReplaceAllPrefix(dir, rel + ".php", "");
    NoDirPrefixInRel(rel, dir);
    ReplaceAllSkip(rel, ".php", dir, "");
    NoDirInExtension(dir);
    ReplaceAllAbsent(".php", dir, "");
  }

  /** Removing every `.php` from `rel.php` leaves `rel` when `rel` holds no `.`. */
  lemma StripExtension(rel: string)
    requires '.' !in rel
    ensures ReplaceAll(rel + ".php", ".php", "") == rel
  {
    forall i | 0 <= i < |rel| ensures !OccursAt(rel + ".php", ".php", i) {
      assert (rel + ".php")[i] == rel[i];
    }
    ReplaceAllSkip(rel, ".php", ".php", "");
    assert ReplaceAll(".php", ".php", "") == "";
    assert rel + "" == rel;
  }

  /** Deriving the name of `configDir/rel.php` and mapping that name back to a
      path gives the original path, when `rel` holds no `.` and no
      `configDir/`. */
  lemma NameRoundTrip(configDir: string, rel: string)
    requires '.' !in rel
    requires forall i :: 0 <= i < |rel| ==> !OccursAt(rel, configDir + "/", i)
    ensures IsPhpFile(configDir + "/" + rel + ".php")
    ensures DeriveName(configDir, configDir + "/" + rel + ".php") == ReplaceAll(rel, "/", ".")
    ensures ConfigPath(configDir, DeriveName(configDir, configDir + "/" + rel + ".php"))
            == configDir + "/" + rel + ".php"
  {
    var path := configDir + "/" + rel + ".php";
    PhpSuffix(configDir + "/" + rel);
    StripConfigDir(configDir, rel);
    assert ReplaceAll(path, configDir + "/", "") == rel + ".php";
    StripExtension(rel);
    var name := ReplaceAll(rel, "/", ".");
    assert DeriveName(configDir, path) == name;
    ReplaceCharInverse(rel, '/', '.');
    assert ReplaceAll(name, ".", "/") == rel;
  }

  /** A path ending in `.php` passes the PHP test. */
  lemma PhpSuffix(stem: string)
    ensures IsPhpFile(stem + ".php")
  {
    var p := stem + ".php";
    assert p[|p| - 4..] == ".php";
  }

  /** The directory and the file `writeFile` targets for a dotted name: every
      piece but the last is a directory, the last is the file name. */
  function WriteTarget(configDir: string, name: string): (t: (string, string))
  {
    var parts := Explode(name, '.');
    var dirPath := configDir + "/" + Implode(parts[..|parts| - 1], '/');
    (dirPath, dirPath + "/" + parts[|parts| - 1] + ".php")
  }

  /** Directory part, `/`, last piece and `.php` join to the read path. */
  lemma JoinPieces(configDir: string, parts: seq<string>, name: string)
    requires |parts| >= 2 && Implode(parts, '/') == ReplaceAll(name, ".", "/")
    ensures configDir + "/" + Implode(parts[..|parts| - 1], '/') + "/" + parts[|parts| - 1] + ".php"
            == ConfigPath(configDir, name)
  {
    var head, last := Implode(parts[..|parts| - 1], '/'), parts[|parts| - 1];
    ImplodeSplitLast(parts, '/');
    JoinAssoc(configDir, head, last, ReplaceAll(name, ".", "/"));
  }

  lemma JoinAssoc(a: string, h: string, l: string, w: string)
    requires h + "/" + l == w
    ensures a + "/" + h + "/" + l + ".php" == a + "/" + w + ".php"
  {
  }

  /** For a name holding a dot, `writeFile` targets the same file that reading
      the name loads; without a dot the target has a doubled separator. */
  lemma WriteTargetIsConfigPath(configDir: string, name: string)
    ensures '.' in name ==> WriteTarget(configDir, name).1 == ConfigPath(configDir, name)
    ensures '.' !in name ==> WriteTarget(configDir, name).1 == configDir + "//" + name + ".php"
  {
    var parts := Explode(name, '.');
    if '.' in name {
      ImplodeExplode(name, '.', '/');
      JoinPieces(configDir, parts, name);
    } else {
      assert parts == [name];
      assert parts[..0] == [];
    }
  }

  /** The file a path names: the file system reads a run of `/` as one. */
  function Canonical(p: string): (r: string)
    ensures |r| <= |p|
    ensures |p| > 0 ==> |r| > 0 && r[0] == p[0]
    decreases |p|
  {
    if |p| == 0 then p
    else if |p| >= 2 && p[0] == '/' && p[1] == '/' then Canonical(p[1..])
    else [p[0]] + Canonical(p[1..])
  }

  /** No two `/` are adjacent in `s`. */
  predicate SingleSlashes(s: string)
  {
    forall i :: 0 <= i < |s| - 1 ==> !(s[i] == '/' && s[i + 1] == '/')
  }

  /** The file a path names has no two adjacent `/`. */
  lemma {:induction false} CanonicalSingleSlashes(p: string)
    ensures SingleSlashes(Canonical(p))
    decreases |p|
  {
    if |p| > 0 {
      CanonicalSingleSlashes(p[1..]);
      var t := Canonical(p[1..]);
      assert SingleSlashes(t);
      if !(|p| >= 2 && p[0] == '/' && p[1] == '/') {
        var r := [p[0]] + t;
        assert Canonical(p) == r;
        forall i | 0 <= i < |r| - 1 ensures !(r[i] == '/' && r[i + 1] == '/') {
          if i > 0 {
            assert r[i] == t[i - 1] && r[i + 1] == t[i];
          } else {
            assert |p| >= 2 && p[1..][0] == p[1];
            assert r[0] == p[0] && r[1] == t[0] == p[1];
          }
        }
      }
    }
  }

  /** A doubled `/` names the same file as a single one. */
  lemma {:induction false} CanonicalDoubleSlash(a: string, b: string)
    ensures Canonical(a + "//" + b) == Canonical(a + "/" + b)
    decreases |a|
  {
    var w, u := a + "//" + b, a + "/" + b;
    if |a| == 0 {
      assert w[1..] == u;
    } else {
      assert w[0] == u[0] && w[1] == u[1];
      assert w[1..] == a[1..] + "//" + b && u[1..] == a[1..] + "/" + b;
      CanonicalDoubleSlash(a[1..], b);
    }
  }

  /** Whatever the name, `writeFile`'s target is the file that reading the
      name loads. */
  lemma WriteTargetSameFile(configDir: string, name: string)
    ensures Canonical(WriteTarget(configDir, name).1) == Canonical(ConfigPath(configDir, name))
  {
    WriteTargetIsConfigPath(configDir, name);
    if '.' !in name {
      forall i | 0 <= i < |name| ensures !OccursAt(name, ".", i) {
        assert name[i..i + 1] == [name[i]];
      }
      ReplaceAllAbsent(name, ".", "/");
      assert configDir + "//" + name + ".php" == configDir + "//" + (name + ".php");
      assert ConfigPath(configDir, name) == configDir + "/" + (name + ".php");
      CanonicalDoubleSlash(configDir, name + ".php");
    }
  }

  /** `path(dir)`: the project root without its trailing slashes, one slash,
      and `dir` without leading or trailing slashes. */
  function Path(root: string, dir: string): (r: string)
    ensures RTrim(root, '/') <= r
    ensures |r| == |RTrim(root, '/')| + 1 + |Trim(dir, '/')|
    ensures r[|RTrim(root, '/')|] == '/'
    ensures EndsWith(r, Trim(dir, '/'))
    ensures |RTrim(root, '/')| > 0 ==> r[|RTrim(root, '/')| - 1] != '/'
    ensures |Trim(dir, '/')| > 0 ==> r[|RTrim(root, '/')| + 1] != '/'
  {
    var a := RTrim(root, '/');
    var b := Trim(dir, '/');
    JoinShape(a, b);
    a + "/" + b
  }

  lemma JoinShape(a: string, b: string)
    ensures var r := a + "/" + b;
      && a <= r && |r| == |a| + 1 + |b| && r[|a|] == '/' && EndsWith(r, b)
      && (|a| > 0 ==> r[|a| - 1] == a[|a| - 1])
      && (|b| > 0 ==> r[|a| + 1] == b[0])
  {
    var r := a + "/" + b;
    assert r[|a| + 1..] == b;
  }

  /** `path('test')` ends with `test`, whatever the root. */
  lemma PathEndsWithSubdir(root: string)
    ensures EndsWith(Path(root, "test"), "test")
  {
    assert Trim("test", '/') == "test";
  }
}

=== FILE: env.dfy ===
/**
  Environment access: the snapshot taken at construction (an env file merged
  with the process environment) and the typed coercion of a raw value.
 */
module Env {
  import opened Values

  /** The range of PHP's 64-bit `int`. */
  const MaxInt: int := 0x7fff_ffff_ffff_ffff
  const MinInt: int := -0x8000_0000_0000_0000

  /** `$dotenv + $_ENV`: every key of either; the env file wins on a conflict. */
  function Snapshot(dotenv: map<string, string>, process: map<string, string>): (r: map<string, string>)
    ensures r.Keys == dotenv.Keys + process.Keys
    ensures forall k :: k in dotenv ==> r[k] == dotenv[k]
    ensures forall k :: k in process && k !in dotenv ==> r[k] == process[k]
  {
    process + dotenv
  }

  predicate IsDigit(c: char)
  {
    '0' <= c <= '9'
  }

  predicate AllDigits(s: string)
  {
    forall i :: 0 <= i < |s| ==> IsDigit(s[i])
  }

  /** `is_numeric`, restricted to an optionally signed string of decimal digits. */
  predicate IsNumeric(s: string)
  {
    |s| > 0 &&
    if s[0] == '+' || s[0] == '-' then |s| > 1 && AllDigits(s[1..]) else AllDigits(s)
  }

  /** The number a string of decimal digits denotes. */
  function DigitsValue(s: string): nat
    requires AllDigits(s)
  {
    if |s| == 0 then 0 else DigitsValue(s[..|s| - 1]) * 10 + (s[|s| - 1] as int - '0' as int)
  }

  /** PHP's conversion of an out-of-range numeric string clamps to the int range. */
  function Saturate(n: int): (r: int)
    ensures MinInt <= r <= MaxInt
    ensures MinInt <= n <= MaxInt ==> r == n
    ensures n > MaxInt ==> r == MaxInt
    ensures n < MinInt ==> r == MinInt
  {
    if n > MaxInt then MaxInt else if n < MinInt then MinInt else n
  }

  /** `intval` of a numeric string. */
  function IntVal(s: string): (r: int)
    requires IsNumeric(s)
    ensures MinInt <= r <= MaxInt
  {
    Saturate(if s[0] == '-' then 0 - DigitsValue(s[1..]) as int
             else if s[0] == '+' then DigitsValue(s[1..])
             else DigitsValue(s))
  }

  /** The coercion of a raw environment string, arms tried in order:
      `null`, `true`, `false`, numeric, and otherwise the string itself. */
  function Coerce(raw: string): (v: Value)
    ensures v == Null <==> raw == "null"
    ensures v == Bool(true) <==> raw == "true"
    ensures v == Bool(false) <==> raw == "false"
    ensures v.Int? <==> IsNumeric(raw)
    ensures v.Int? ==> v.i == IntVal(raw)
    ensures v.Str? ==> v.s == raw
  {
    if raw == "null" then Null
    else if raw == "true" then Bool(true)
    else if raw == "false" then Bool(false)
    else if IsNumeric(raw) then Int(IntVal(raw))
    else Str(raw)
  }

  /** `env(key, default, raw)` over the snapshot: a missing key yields the
      default in both modes; raw mode returns the stored string uncoerced. */
  function Lookup(env: map<string, string>, key: string, default: Value, raw: bool): (v: Value)
    ensures key !in env ==> v == default
    ensures key in env && raw ==> v == Str(env[key])
    ensures key in env && !raw ==> v == Coerce(env[key])
  {
    if key !in env then default
    else if raw then Str(env[key])
    else Coerce(env[key])
  }

  function DigitChar(d: nat): char
    requires d < 10
  {
    ('0' as int + d) as char
  }

  /** The decimal digits of a natural number, most significant first. */
  function Digits(n: nat): (s: string)
    ensures |s| >= 1 && AllDigits(s)
    ensures DigitsValue(s) == n
  {
    if n < 10 then [DigitChar(n)]
    else
      var s := Digits(n / 10) + [DigitChar(n % 10)];
      assert s[..|s| - 1] == Digits(n / 10);
      s
  }

  /** The decimal rendering of an integer, with a leading `-` when negative. */
  function Decimal(n: int): string
  {
    if n < 0 then "-" + Digits(-n) else Digits(n)
  }

  /** An integer written as an environment string reads back as that integer. */
  lemma DecimalRoundTrip(n: int)
    requires MinInt <= n <= MaxInt
    ensures IsNumeric(Decimal(n))
    ensures Coerce(Decimal(n)) == Int(n)
  {
    var s := Decimal(n);
    if n < 0 {
      assert s[1..] == Digits(-n);
    } else {
      assert IsDigit(s[0]);
    }
    assert s != "null" && s != "true" && s != "false" by {
      assert s[0] == '-' || IsDigit(s[0]);
    }
  }

  /** The coercions an application relies on. */
  lemma CoercionExamples()
    ensures Coerce("true") == Bool(true) && Coerce("false") == Bool(false)
    ensures Coerce("null") == Null
    ensures Coerce("42") == Int(42)
    ensures Coerce("abc") == Str("abc")
    ensures Lookup(map["RAW" := "true"], "RAW", Null, true) == Str("true")
  {
    assert DigitsValue("4") == 4;
    assert "42"[..1] == "4";
    assert IsNumeric("42");
    assert !IsNumeric("abc") by { assert !IsDigit("abc"[0]); }
  }
}

=== FILE: loader.dfy ===
/**
  The lazy, cache-backed resolver: a configuration file's content is an array
  whose values may ask the resolver for values of other files; `Get` answers
  from the cache, or records the access, applies the count guard and reads
  the file; the constructor loads every discovered file, replays the files
  whose evaluation repeated an access through a proxy, and resets the logs.
 */
module Loader {
  import opened Values
  import opened AccessLog
  import ConfigPaths
  import Env

  /** One value expression of a configuration file's returned array. */
  datatype Entry =
    | Literal(value: Value)
      /** `$config->get(file, key, default)` */
    | Ref(file: string, key: string, default: Value)
      /** `$config->env(envKey, default, raw)` */
    | EnvRef(envKey: string, envDefault: Value, raw: bool)

  /** A configuration file: its array's keys with their value expressions, in order. */
  type Content = seq<(string, Entry)>

  type Cache = map<string, map<string, Value>>

  function KeysOf(content: Content): set<string>
  {
    set i | 0 <= i < |content| :: content[i].0
  }

  /** The array a file returns once each entry's value is known; a later
      entry for the same key overwrites an earlier one. */
  function Assemble(content: Content, vals: seq<Value>): (m: map<string, Value>)
    requires |vals| == |content|
    ensures m.Keys == KeysOf(content)
  {
    if |content| == 0 then map[]
    else
      var n := |content| - 1;
      var m := Assemble(content[..n], vals[..n])[content[n].0 := vals[n]];
      assert forall k :: k in KeysOf(content[..n]) ==> k in KeysOf(content) by {
        forall k | k in KeysOf(content[..n]) ensures k in KeysOf(content) {
          var j :| 0 <= j < n && content[..n][j].0 == k;
          assert content[j].0 == k;
        }
      }
      assert forall k :: k in KeysOf(content) ==> k in m by {
        forall k | k in KeysOf(content) ensures k in m {
          var j :| 0 <= j <= n && content[j].0 == k;
          if j < n { assert content[..n][j].0 == k; }
        }
      }
      m
  }

  /** The value of a key in an assembled array is the value of its last entry. */
  lemma {:induction false} AssembleLast(content: Content, vals: seq<Value>, j: nat)
    requires |vals| == |content| && j < |content|
    requires forall k :: j < k < |content| ==> content[k].0 != content[j].0
    ensures Assemble(content, vals)[content[j].0] == vals[j]
    decreases |content|
  {
    var n := |content| - 1;
    if j < n {
      AssembleLast(content[..n], vals[..n], j);
    }
  }

  /** Every reference the proxy does not intercept, into a file of `cache`,
      resolved to that file's cached value (or null). */
  predicate CachedRefs(cache: Cache, content: Content, resolved: seq<Value>, proxy: Option<ProxyView>)
  {
    forall i :: 0 <= i < |content| && i < |resolved| && content[i].1.Ref? && content[i].1.file in cache
                && !(proxy.Some? && Intercepts(proxy.value, content[i].1.key)) ==>
      resolved[i] == CacheHit(cache[content[i].1.file], content[i].1.key)
  }
  /** `$this->vars[$file][$key] ?? null` on a cached file. */
  function CacheHit(m: map<string, Value>, key: string): (v: Value)
    ensures key in m ==> v == m[key]
    ensures key !in m ==> v == Null
  {
    if key in m then m[key] else Null
  }

  /** What the proxy of a replay was built from: the repeated log's named
      part and the cache, both as they stood when the replay began. */
  datatype ProxyView = ProxyView(repeated: Named, vars: Cache)

  /** The proxy answers a key name found among the repeated log's key names. */
  predicate Intercepts(view: ProxyView, key: string)
  {
    key in KeyNames(view.repeated)
  }

  /** `$vars[$file][$key] ?? $default` over the snapshot: a missing or null
      value yields the default. */
  function ProxyAnswer(view: ProxyView, file: string, key: string, default: Value): (v: Value)
    ensures file in view.vars && key in view.vars[file] && view.vars[file][key] != Null ==>
              v == view.vars[file][key]
    ensures !(file in view.vars && key in view.vars[file] && view.vars[file][key] != Null) ==> v == default
  {
    if file in view.vars && key in view.vars[file] && view.vars[file][key] != Null
    then view.vars[file][key] else default
  }

  /** The resolver's mutable part: the cache and both logs. */
  datatype State = State(vars: Cache, logs: Logs)

  /** What resolving one value yields: the value, the state it leaves and
      the uncached accesses it recorded, in order. */
  datatype Answer = Answer(v: Value, st: State, accesses: seq<(string, string)>)

  /** What evaluating a file's entries yields: the array, each entry's value,
      the state it leaves and the accesses it recorded, in order. */
  datatype Evaluation = Evaluation(m: map<string, Value>, resolved: seq<Value>, st: State,
                                   accesses: seq<(string, string)>)

  /** What a step of the bulk load yields: the state it leaves and the
      accesses it recorded, in order. */
  datatype Pass = Pass(st: State, accesses: seq<(string, string)>)

  /** Every array cached in `before` is still cached, unchanged, in `after`. */
  predicate Keeps(before: Cache, after: Cache)
  {
    forall f :: f in before ==> f in after && after[f] == before[f]
  }

  class FileConfig {
    const projectRootDir: string
    const configDir: string
    /** The environment snapshot taken at construction. */
    const env: map<string, string>
    /** The strings for which the file-existence test holds, as the test is given them. */
    const existing: set<string>
    /** What each configuration file at a path evaluates. */
    const files: map<string, Content>

    var vars: Cache
    var mainLog: Log
    var repeatedLog: Log

    ghost predicate Valid()
      reads this
    {
      && (forall f :: f in vars ==> vars[f] != map[])
      && WellFormed(mainLog) && WellFormed(repeatedLog)
    }

    /** The cache and the logs as they stand. */
    function Now(): State
      reads this
    {
      State(vars, Logs(mainLog, repeatedLog))
    }

    /** The entries of the file at a path; a missing file reads as empty. */
    function ContentAt(path: string): Content
    {
      if path in files then files[path] else []
    }

    /** The file `readFile` evaluates for a dotted name. */
    function ReadPath(file: string): string
    {
      ConfigPaths.ConfigPath(configDir, file)
    }

    /** `readFile` evaluates nothing: the name fails the existence test, the
        fuel is spent, or the file at the name's path has no entries. */
    predicate ReadsNothing(file: string, fuel: nat)
    {
      file !in existing || fuel == 0 || |ContentAt(ReadPath(file))| == 0
    }

    /** How far an entry's resolved value is determined by the entry alone:
        literals are themselves, environment entries are looked up, and a
        reference the proxy intercepts is answered from its snapshot. */
    predicate Settled(e: Entry, v: Value, proxy: Option<ProxyView>)
    {
      match e
      case Literal(x) => v == x
      case EnvRef(k, d, raw) => v == Env.Lookup(env, k, d, raw)
      case Ref(f, k, d) => proxy.Some? && Intercepts(proxy.value, k) ==> v == ProxyAnswer(proxy.value, f, k, d)
    }

    /** `m` is the array `content` returns when its entries resolve to `resolved`. */
    predicate Evaluates(content: Content, m: map<string, Value>, resolved: seq<Value>, proxy: Option<ProxyView>)
    {
      && |resolved| == |content| && m == Assemble(content, resolved)
      && forall i :: 0 <= i < |content| ==> Settled(content[i].1, resolved[i], proxy)
    }

    /** One more entry, resolved to `v`, extends an evaluation of the entries before it. */
    lemma EvalStep(cache: Cache, content: Content, pre: Evaluation, v: Value, proxy: Option<ProxyView>)
      requires |content| > 0
      requires Evaluates(content[..|content| - 1], pre.m, pre.resolved, proxy)
      requires CachedRefs(cache, content[..|content| - 1], pre.resolved, proxy)
      requires Settled(content[|content| - 1].1, v, proxy)
      requires var e := content[|content| - 1].1;
        e.Ref? && e.file in cache && !(proxy.Some? && Intercepts(proxy.value, e.key)) ==>
          v == CacheHit(cache[e.file], e.key)
      ensures Evaluates(content, pre.m[content[|content| - 1].0 := v], pre.resolved + [v], proxy)
      ensures CachedRefs(cache, content, pre.resolved + [v], proxy)
    {
      var n := |content| - 1;
      var w := pre.resolved + [v];
      assert w[..n] == pre.resolved;
      assert Assemble(content, w) == Assemble(content[..n], w[..n])[content[n].0 := w[n]];
      assert forall i :: 0 <= i < n ==> content[..n][i] == content[i];
    }

    /** What evaluating `content` entry by entry from state `st` yields:
        literals are themselves, environment entries are looked up, and each
        reference goes through the proxy when one is given and through `get`
        otherwise, in the state the entries before it left. */
    function EvalContentSpec(st: State, content: Content, fuel: nat, proxy: Option<ProxyView>): (r: Evaluation)
      decreases fuel, 4, |content|
      ensures |r.resolved| == |content|
      ensures Keeps(st.vars, r.st.vars)
      ensures |content| == 0 ==> r == Evaluation(map[], [], st, [])
    {
      if |content| == 0 then Evaluation(map[], [], st, [])
      else
        var n := |content| - 1;
        var pre := EvalContentSpec(st, content[..n], fuel, proxy);
        var a := EvalEntrySpec(pre.st, content[n].1, fuel, proxy);
        Evaluation(pre.m[content[n].0 := a.v], pre.resolved + [a.v], a.st, pre.accesses + a.accesses)
    }

    /** What resolving one entry from state `st` yields. */
    function EvalEntrySpec(st: State, e: Entry, fuel: nat, proxy: Option<ProxyView>): (a: Answer)
      decreases fuel, 3
      ensures Keeps(st.vars, a.st.vars)
    {
      match e
      case Literal(x) => Answer(x, st, [])
      case EnvRef(k, d, raw) => Answer(Env.Lookup(env, k, d, raw), st, [])
      case Ref(f, k, d) =>
        if proxy.Some? then ProxyGetSpec(st, proxy.value, f, k, d, fuel)
        else GetSpec(st, f, k, d, fuel)
    }

    /** What the proxy's `get` yields from state `st`. */
    function ProxyGetSpec(st: State, view: ProxyView, file: string, key: string, default: Value, fuel: nat): (a: Answer)
      decreases fuel, 2
      ensures Keeps(st.vars, a.st.vars)
    {
      if Intercepts(view, key) then Answer(ProxyAnswer(view, file, key, default), st, [])
      else GetSpec(st, file, key, default, fuel)
    }

    /** What `get(file, key, default)` yields from state `st`. */
    function GetSpec(st: State, file: string, key: string, default: Value, fuel: nat): (a: Answer)
      decreases fuel, 1
      ensures Keeps(st.vars, a.st.vars)
    {
      if file in st.vars then Answer(CacheHit(st.vars[file], key), st, [])
      else
        var recorded := State(st.vars, Record(st.logs, file, key));
        if Guard(recorded.logs) then Answer(default, recorded, [(file, key)])
        else
          var rd := ReadFileSpec(recorded, file, fuel);
          if key in rd.m then Answer(rd.m[key], State(rd.st.vars[file := rd.m], rd.st.logs), [(file, key)] + rd.accesses)
          else Answer(default, rd.st, [(file, key)] + rd.accesses)
    }

    /** What `readFile(file)` yields from state `st`. */
    function ReadFileSpec(st: State, file: string, fuel: nat): (r: Evaluation)
      decreases fuel, 0
      ensures Keeps(st.vars, r.st.vars)
      ensures ReadsNothing(file, fuel) ==> r.m == map[] && r.st == st && r.accesses == []
    {
      if file !in existing || fuel == 0 then Evaluation(map[], [], st, [])
      else EvalContentSpec(st, ContentAt(ReadPath(file)), fuel - 1, None)
    }

    /** The logs after evaluating a file are the logs before with the
        evaluation's accesses recorded in order. */
    lemma {:induction false} EvalContentLogs(st: State, content: Content, fuel: nat, proxy: Option<ProxyView>)
      ensures var r := EvalContentSpec(st, content, fuel, proxy); r.st.logs == RecordAll(st.logs, r.accesses)
      decreases fuel, 4, |content|
    {
      if |content| > 0 {
        var n := |content| - 1;
        var pre := EvalContentSpec(st, content[..n], fuel, proxy);
        var a := EvalEntrySpec(pre.st, content[n].1, fuel, proxy);
        EvalContentLogs(st, content[..n], fuel, proxy);
        EvalEntryLogs(pre.st, content[n].1, fuel, proxy);
        RecordAllChain(st.logs, pre.st.logs, a.st.logs, pre.accesses, a.accesses);
        EvalContentLast(st, content, fuel, proxy);
      }
    }

    /** The logs after resolving an entry record its accesses in order. */
    lemma {:induction false} EvalEntryLogs(st: State, e: Entry, fuel: nat, proxy: Option<ProxyView>)
      ensures var a := EvalEntrySpec(st, e, fuel, proxy); a.st.logs == RecordAll(st.logs, a.accesses)
      decreases fuel, 3
    {
      if e.Ref? {
        if proxy.Some? {
          ProxyGetLogs(st, proxy.value, e.file, e.key, e.default, fuel);
        } else {
          GetLogs(st, e.file, e.key, e.default, fuel);
        }
      }
    }

    /** The logs after the proxy's `get` record its accesses in order. */
    lemma {:induction false} ProxyGetLogs(st: State, view: ProxyView, file: string, key: string, default: Value, fuel: nat)
      ensures var a := ProxyGetSpec(st, view, file, key, default, fuel); a.st.logs == RecordAll(st.logs, a.accesses)
      decreases fuel, 2
    {
      if !Intercepts(view, key) {
        GetLogs(st, file, key, default, fuel);
      }
    }

    /** The logs after `get` are the logs before with its accesses recorded
        in order: none on a hit, the requested access first on a miss,
        followed by those of the read. */
    lemma {:induction false} GetLogs(st: State, file: string, key: string, default: Value, fuel: nat)
      ensures var a := GetSpec(st, file, key, default, fuel); a.st.logs == RecordAll(st.logs, a.accesses)
      decreases fuel, 1
    {
      if file !in st.vars {
        var recorded := State(st.vars, Record(st.logs, file, key));
        if Guard(recorded.logs) {
          RecordAllCons(st.logs, file, key, []);
        } else {
          var rd := ReadFileSpec(recorded, file, fuel);
          ReadFileLogs(recorded, file, fuel);
          RecordAllCons(st.logs, file, key, rd.accesses);
        }
      }
    }

    /** A name that passes the existence test, with fuel left, reads the
        evaluation of the file at its path. */
    lemma ReadFileSpecReads(st: State, file: string, fuel: nat)
      requires file in existing && fuel > 0
      ensures ReadFileSpec(st, file, fuel) == EvalContentSpec(st, ContentAt(ReadPath(file)), fuel - 1, None)
    {
    }

    /** The logs after `readFile` record its accesses in order. */
    lemma {:induction false} ReadFileLogs(st: State, file: string, fuel: nat)
      ensures var r := ReadFileSpec(st, file, fuel); r.st.logs == RecordAll(st.logs, r.accesses)
      decreases fuel, 0
    {
      if file in existing && fuel > 0 {
        EvalContentLogs(st, ContentAt(ReadPath(file)), fuel - 1, None);
        ReadFileSpecReads(st, file, fuel);
      }
    }

    /** How one entry resolves: a literal is itself and an environment entry
        is looked up, both without changing anything; a reference the proxy
        intercepts is answered from its snapshot; any other reference into a
        cached file is answered from the cache. */
    lemma EvalEntrySpecSettled(st: State, e: Entry, fuel: nat, proxy: Option<ProxyView>)
      ensures var a := EvalEntrySpec(st, e, fuel, proxy);
        && Settled(e, a.v, proxy)
        && (!e.Ref? ==> a.st == st && a.accesses == [])
        && (e.Ref? && proxy.Some? && Intercepts(proxy.value, e.key) ==> a.st == st && a.accesses == [])
        && (e.Ref? && !(proxy.Some? && Intercepts(proxy.value, e.key)) && e.file in st.vars ==>
              a.v == CacheHit(st.vars[e.file], e.key))
    {
      if e.Ref? {
        GetSpecOutcome(st, e.file, e.key, e.default, fuel);
      }
    }

    /** What `get` does: a cache hit answers the cached value or null and
        changes nothing; a miss records the access first; under the guard, or
        when the read finds nothing, it answers the default with that one
        access recorded and the cache unchanged; otherwise, when the array
        read holds the key, the whole array is cached and the key's value
        answered, else the default is answered. A non-default answer always
        leaves the file cached with that value. */
    lemma GetSpecOutcome(st: State, file: string, key: string, default: Value, fuel: nat)
      ensures var a := GetSpec(st, file, key, default, fuel);
        && (file in st.vars ==> a == Answer(CacheHit(st.vars[file], key), st, []))
        && (file !in st.vars ==> |a.accesses| > 0 && a.accesses[0] == (file, key))
        && (file !in st.vars && (Guard(Record(st.logs, file, key)) || ReadsNothing(file, fuel)) ==>
              a == Answer(default, State(st.vars, Record(st.logs, file, key)), [(file, key)]))
        && (file !in st.vars && !Guard(Record(st.logs, file, key)) ==>
              var rd := ReadFileSpec(State(st.vars, Record(st.logs, file, key)), file, fuel);
              && (key in rd.m ==> a.v == rd.m[key] && a.st.vars == rd.st.vars[file := rd.m])
              && (key !in rd.m ==> a.v == default && a.st.vars == rd.st.vars))
        && (a.v != default ==> file in a.st.vars && CacheHit(a.st.vars[file], key) == a.v)
    {
    }

    /** Evaluating a file yields the array of its entries' resolved values,
        with literals and environment entries settled, intercepted references
        answered from the proxy's snapshot, and every other reference into a
        file cached when evaluation began resolved to that file's cached value. */
    lemma {:induction false} EvalContentSpecEvaluates(st: State, content: Content, fuel: nat, proxy: Option<ProxyView>)
      ensures var r := EvalContentSpec(st, content, fuel, proxy);
        Evaluates(content, r.m, r.resolved, proxy) && CachedRefs(st.vars, content, r.resolved, proxy)
      decreases |content|
    {
      if |content| > 0 {
        var n := |content| - 1;
        var pre := EvalContentSpec(st, content[..n], fuel, proxy);
        EvalContentSpecEvaluates(st, content[..n], fuel, proxy);
        var a := EvalEntrySpec(pre.st, content[n].1, fuel, proxy);
        EvalEntrySpecSettled(pre.st, content[n].1, fuel, proxy);
        EvalStep(st.vars, content, pre, a.v, proxy);
      }
    }

    /** What loading one discovered entry yields from state `st`. */
    function LoadDiscoveredSpec(st: State, path: string, isFile: bool, fuel: nat): (r: Pass)
      ensures Keeps(st.vars, r.st.vars)
      ensures !(isFile && ConfigPaths.IsPhpFile(path)) || ConfigPaths.DeriveName(configDir, path) in st.vars
              || |ContentAt(path)| == 0 ==>
        r == Pass(st, [])
      ensures isFile && ConfigPaths.IsPhpFile(path) && |ContentAt(path)| > 0 ==>
        ConfigPaths.DeriveName(configDir, path) in r.st.vars
      ensures isFile && ConfigPaths.IsPhpFile(path) && ConfigPaths.DeriveName(configDir, path) !in st.vars
              && |ContentAt(path)| > 0 ==>
        r.st.vars[ConfigPaths.DeriveName(configDir, path)] == EvalContentSpec(st, ContentAt(path), fuel, None).m
    {
      if !(isFile && ConfigPaths.IsPhpFile(path)) then Pass(st, [])
      else
        var name := ConfigPaths.DeriveName(configDir, path);
        if name in st.vars then Pass(st, [])
        else
          var ev := EvalContentSpec(st, ContentAt(path), fuel, None);
          EvalContentSpecEvaluates(st, ContentAt(path), fuel, None);
          assert |ContentAt(path)| > 0 ==> ContentAt(path)[0].0 in KeysOf(ContentAt(path));
          Pass(State(if ev.m != map[] then ev.st.vars[name := ev.m] else ev.st.vars, ev.st.logs), ev.accesses)
    }

    /** What replaying one file yields from state `st`: the proxy is built
        from the repeated log and the cache as they stand in `st`. */
    function ReplaySpec(st: State, file: string, fuel: nat): (r: Pass)
      ensures st.vars.Keys <= r.st.vars.Keys
      ensures forall f :: f in st.vars && f != file ==> r.st.vars[f] == st.vars[f]
      ensures |ContentAt(ReadPath(file))| == 0 ==> r == Pass(st, [])
      ensures |ContentAt(ReadPath(file))| > 0 ==>
        file in r.st.vars && r.st.vars[file] == EvalContentSpec(st, ContentAt(ReadPath(file)), fuel,
                                           Some(ProxyView(st.logs.repeated.named, st.vars))).m
    {
      var content := ContentAt(ReadPath(file));
      var ev := EvalContentSpec(st, content, fuel, Some(ProxyView(st.logs.repeated.named, st.vars)));
      EvalContentSpecEvaluates(st, content, fuel, Some(ProxyView(st.logs.repeated.named, st.vars)));
      assert |content| > 0 ==> content[0].0 in KeysOf(content);
      Pass(State(if ev.m != map[] then ev.st.vars[file := ev.m] else ev.st.vars, ev.st.logs), ev.accesses)
    }

    /** What loading the discovered entries in order yields from state `st`. */
    function ScanSpec(st: State, discovered: seq<(string, bool)>, fuel: nat): (r: Pass)
      decreases |discovered|
      ensures Keeps(st.vars, r.st.vars)
    {
      if |discovered| == 0 then Pass(st, [])
      else
        var n := |discovered| - 1;
        var p := ScanSpec(st, discovered[..n], fuel);
        var q := LoadDiscoveredSpec(p.st, discovered[n].0, discovered[n].1, fuel);
        Pass(q.st, p.accesses + q.accesses)
    }

    /** After the scan, every discovered non-empty PHP file is cached under its derived name. */
    lemma {:induction false} ScanCaches(st: State, discovered: seq<(string, bool)>, fuel: nat)
      ensures forall j :: 0 <= j < |discovered| && discovered[j].1 && ConfigPaths.IsPhpFile(discovered[j].0)
                          && |ContentAt(discovered[j].0)| > 0 ==>
                ConfigPaths.DeriveName(configDir, discovered[j].0) in ScanSpec(st, discovered, fuel).st.vars
      decreases |discovered|
    {
      if |discovered| > 0 {
        var n := |discovered| - 1;
        ScanCaches(st, discovered[..n], fuel);
        assert forall j :: 0 <= j < n ==> discovered[..n][j] == discovered[j];
      }
    }

    /** Scanning one more entry loads it in the state the entries before it left. */
    lemma ScanStep(st: State, discovered: seq<(string, bool)>, i: nat, fuel: nat)
      requires i < |discovered|
      ensures ScanSpec(st, discovered[..i + 1], fuel).st
              == LoadDiscoveredSpec(ScanSpec(st, discovered[..i], fuel).st, discovered[i].0, discovered[i].1, fuel).st
    {
      assert discovered[..i + 1][..i] == discovered[..i];
    }

    /** What replaying the files of a named log in order yields from state `st`. */
    function ReplayAllSpec(st: State, toReplay: Named, fuel: nat): (r: Pass)
      decreases |toReplay|
      ensures st.vars.Keys <= r.st.vars.Keys
    {
      if |toReplay| == 0 then Pass(st, [])
      else
        var n := |toReplay| - 1;
        var p := ReplayAllSpec(st, toReplay[..n], fuel);
        var q := ReplaySpec(p.st, toReplay[n].0, fuel);
        Pass(q.st, p.accesses + q.accesses)
    }

    /** The logs after the scan are the empty-or-given logs with the scan's
        accesses recorded in order; the files replayed after it are the
        files of its repeated log. */
    lemma {:induction false} ScanLogs(st: State, discovered: seq<(string, bool)>, fuel: nat)
      ensures var r := ScanSpec(st, discovered, fuel); r.st.logs == RecordAll(st.logs, r.accesses)
      decreases |discovered|
    {
      if |discovered| > 0 {
        var n := |discovered| - 1;
        var p := ScanSpec(st, discovered[..n], fuel);
        var q := LoadDiscoveredSpec(p.st, discovered[n].0, discovered[n].1, fuel);
        ScanLogs(st, discovered[..n], fuel);
        LoadDiscoveredLogs(p.st, discovered[n].0, discovered[n].1, fuel);
        RecordAllAppend(st.logs, p.accesses, q.accesses);
      }
    }

    /** The logs after loading one discovered entry record its accesses in order. */
    lemma LoadDiscoveredLogs(st: State, path: string, isFile: bool, fuel: nat)
      ensures var r := LoadDiscoveredSpec(st, path, isFile, fuel); r.st.logs == RecordAll(st.logs, r.accesses)
    {
      EvalContentLogs(st, ContentAt(path), fuel, None);
    }

    /** The logs after replaying one file record its accesses in order. */
    lemma ReplayLogs(st: State, file: string, fuel: nat)
      ensures var r := ReplaySpec(st, file, fuel); r.st.logs == RecordAll(st.logs, r.accesses)
    {
      EvalContentLogs(st, ContentAt(ReadPath(file)), fuel, Some(ProxyView(st.logs.repeated.named, st.vars)));
    }

    /** The logs after the repair pass record its accesses in order. */
    lemma {:induction false} ReplayAllLogs(st: State, toReplay: Named, fuel: nat)
      ensures var r := ReplayAllSpec(st, toReplay, fuel); r.st.logs == RecordAll(st.logs, r.accesses)
      decreases |toReplay|
    {
      if |toReplay| > 0 {
        var n := |toReplay| - 1;
        var p := ReplayAllSpec(st, toReplay[..n], fuel);
        var q := ReplaySpec(p.st, toReplay[n].0, fuel);
        ReplayAllLogs(st, toReplay[..n], fuel);
        ReplayLogs(p.st, toReplay[n].0, fuel);
        RecordAllAppend(st.logs, p.accesses, q.accesses);
      }
    }

    /** Replaying one more file replays it in the state the files before it left. */
    lemma ReplayAllStep(st: State, toReplay: Named, i: nat, fuel: nat)
      requires i < |toReplay|
      ensures ReplayAllSpec(st, toReplay[..i + 1], fuel).st
              == ReplaySpec(ReplayAllSpec(st, toReplay[..i], fuel).st, toReplay[i].0, fuel).st
    {
      assert toReplay[..i + 1][..i] == toReplay[..i];
    }

    /** Evaluates a file's array entry by entry. */
    method EvalContent(content: Content, fuel: nat, proxy: Option<ProxyView>) returns (m: map<string, Value>)
      requires Valid()
      modifies this
      decreases fuel, 4
      ensures Valid()
      ensures var ev := EvalContentSpec(old(Now()), content, fuel, proxy); m == ev.m && Now() == ev.st
    {
      ghost var start := Now();
      m := map[];
      var i := 0;
      while i < |content|
        invariant 0 <= i <= |content|
        invariant Valid()
        invariant var ev := EvalContentSpec(start, content[..i], fuel, proxy); m == ev.m && Now() == ev.st
      {
        var v := EvalEntry(content[i].1, fuel, proxy);
        EvalContentStep(start, content, i, fuel, proxy);
        m := m[content[i].0 := v];
        i := i + 1;
      }
      assert content[..i] == content;
    }

    /** Evaluating one more entry resolves it in the state the entries before it left. */
    lemma EvalContentStep(st: State, content: Content, i: nat, fuel: nat, proxy: Option<ProxyView>)
      requires i < |content|
      ensures var pre := EvalContentSpec(st, content[..i], fuel, proxy);
              var a := EvalEntrySpec(pre.st, content[i].1, fuel, proxy);
              var r := EvalContentSpec(st, content[..i + 1], fuel, proxy);
              r.m == pre.m[content[i].0 := a.v] && r.st == a.st
    {
      assert content[..i + 1][..i] == content[..i];
      EvalContentLast(st, content[..i + 1], fuel, proxy);
    }

    /** The last entry is resolved in the state the entries before it left,
        and its accesses follow theirs. */
    lemma EvalContentLast(st: State, content: Content, fuel: nat, proxy: Option<ProxyView>)
      requires |content| > 0
      ensures var n := |content| - 1;
              var pre := EvalContentSpec(st, content[..n], fuel, proxy);
              var a := EvalEntrySpec(pre.st, content[n].1, fuel, proxy);
              EvalContentSpec(st, content, fuel, proxy)
              == Evaluation(pre.m[content[n].0 := a.v], pre.resolved + [a.v], a.st, pre.accesses + a.accesses)
    {
    }

    /** Resolves one entry: a literal is itself, an environment entry is
        looked up, and a reference goes through the proxy when one is given
        and through `Get` otherwise. */
    method EvalEntry(e: Entry, fuel: nat, proxy: Option<ProxyView>) returns (v: Value)
      requires Valid()
      modifies this
      decreases fuel, 3
      ensures Valid()
      ensures var a := EvalEntrySpec(old(Now()), e, fuel, proxy); v == a.v && Now() == a.st
    {
      match e {
        case Literal(x) =>
          v := x;
        case EnvRef(k, d, raw) =>
          v := Env.Lookup(env, k, d, raw);
        case Ref(f, k, d) =>
          if proxy.Some? {
            v := ProxyGet(proxy.value, f, k, d, fuel);
          } else {
            v := Get(f, k, d, fuel);
          }
      }
    }

    /** The proxy's `get`: an intercepted key name is answered from the
        snapshot without touching the resolver; any other is delegated to `Get`. */
    method ProxyGet(view: ProxyView, file: string, key: string, default: Value, fuel: nat) returns (r: Value)
      requires Valid()
      modifies this
      decreases fuel, 2
      ensures Valid()
      ensures var a := ProxyGetSpec(old(Now()), view, file, key, default, fuel); r == a.v && Now() == a.st
    {
      if Intercepts(view, key) {
        r := ProxyAnswer(view, file, key, default);
      } else {
        r := Get(file, key, default, fuel);
      }
    }

    /** `get(file, key, default)`. */
    method Get(file: string, key: string, default: Value, fuel: nat) returns (r: Value)
      requires Valid()
      modifies this
      decreases fuel, 1
      ensures Valid()
      ensures var a := GetSpec(old(Now()), file, key, default, fuel); r == a.v && Now() == a.st
    {
      if file in vars {
        r := CacheHit(vars[file], key);
        return;
      }
      var logs := Record(Logs(mainLog, repeatedLog), file, key);
      RecordKeepsWellFormed(Logs(mainLog, repeatedLog), file, key);
      mainLog, repeatedLog := logs.main, logs.repeated;
      if Guard(logs) {
        r := default;
        return;
      }
      var configArray := ReadFile(file, fuel);
      if key in configArray {
        vars := vars[file := configArray];
        r := configArray[key];
      } else {
        r := default;
      }
    }

    /** `readFile(name)`: the existence test is made on the dotted name
        itself; only when it holds is the file at the name's path evaluated.
        Out of fuel, nothing is read. */
    method ReadFile(file: string, fuel: nat) returns (m: map<string, Value>)
      requires Valid()
      modifies this
      decreases fuel, 0
      ensures Valid()
      ensures var r := ReadFileSpec(old(Now()), file, fuel); m == r.m && Now() == r.st
    {
      if file !in existing || fuel == 0 {
        return map[];
      }
      m := EvalContent(ContentAt(ReadPath(file)), fuel - 1, None);
    }

    /** One step of the bulk load: a discovered PHP file whose derived name is
        not cached yet is evaluated, and its array cached when non-empty. */
    method LoadDiscovered(path: string, isFile: bool, fuel: nat)
      requires Valid()
      modifies this
      ensures Valid()
      ensures Now() == LoadDiscoveredSpec(old(Now()), path, isFile, fuel).st
    {
      if !(isFile && ConfigPaths.IsPhpFile(path)) {
        return;
      }
      var configName := ConfigPaths.DeriveName(configDir, path);
      if configName in vars {
        return;
      }
      var config := EvalContent(ContentAt(path), fuel, None);
      if config != map[] {
        vars := vars[configName := config];
      }
    }

    /** One step of the repair pass: the file at the name's path is evaluated
        again through a proxy built from the repeated log and the cache as
        they stand now, and its array overwrites the cache when non-empty. */
    method Replay(file: string, fuel: nat)
      requires Valid()
      modifies this
      ensures Valid()
      ensures Now() == ReplaySpec(old(Now()), file, fuel).st
    {
      var view := ProxyView(repeatedLog.named, vars);
      var config := EvalContent(ContentAt(ReadPath(file)), fuel, Some(view));
      if config != map[] {
        vars := vars[file := config];
      }
    }

    /** The scan of the bulk load: every discovered entry loaded in order. */
    method Scan(discovered: seq<(string, bool)>, fuel: nat)
      requires Valid()
      modifies this
      ensures Valid()
      ensures Now() == ScanSpec(old(Now()), discovered, fuel).st
    {
      ghost var start := Now();
      for i := 0 to |discovered|
        invariant Valid()
        invariant Now() == ScanSpec(start, discovered[..i], fuel).st
      {
        LoadDiscovered(discovered[i].0, discovered[i].1, fuel);
        ScanStep(start, discovered, i, fuel);
      }
      assert discovered[..|discovered|] == discovered;
    }

    /** The repair pass of the bulk load: every file of the repeated log, as
        the log stands when the pass begins, replayed in order. */
    method ReplayRepeated(fuel: nat)
      requires Valid()
      modifies this
      ensures Valid()
      ensures Now() == ReplayAllSpec(old(Now()), old(repeatedLog.named), fuel).st
    {
      ghost var start := Now();
      var toReplay := repeatedLog.named;
      for i := 0 to |toReplay|
        invariant Valid()
        invariant Now() == ReplayAllSpec(start, toReplay[..i], fuel).st
      {
        Replay(toReplay[i].0, fuel);
        ReplayAllStep(start, toReplay, i, fuel);
      }
      assert toReplay[..|toReplay|] == toReplay;
    }

    /** The bulk load: every discovered file in order, then a replay of every
        file in the repeated log as it stood after the scan, then a reset of
        both logs. `rootDir` is the detected project root. */
    constructor (rootDir: string, configDirName: string, dotenv: map<string, string>,
                 processEnv: map<string, string>, existing: set<string>,
                 files: map<string, Content>, discovered: seq<(string, bool)>, fuel: nat)
      ensures projectRootDir == rootDir && configDir == rootDir + configDirName
      ensures env == Env.Snapshot(dotenv, processEnv)
      ensures this.existing == existing && this.files == files
      ensures Valid()
      ensures var scan := ScanSpec(State(map[], EmptyLogs), discovered, fuel);
              vars == ReplayAllSpec(scan.st, RecordAll(EmptyLogs, scan.accesses).repeated.named, fuel).st.vars
      ensures mainLog == EmptyLog && repeatedLog == EmptyLog
      ensures forall j :: 0 <= j < |discovered| && discovered[j].1 && ConfigPaths.IsPhpFile(discovered[j].0)
                          && |ContentAt(discovered[j].0)| > 0 ==>
                ConfigPaths.DeriveName(configDir, discovered[j].0) in vars
    {
      projectRootDir := rootDir;
      configDir := rootDir + configDirName;
      env := Env.Snapshot(dotenv, processEnv);
      this.existing := existing;
      this.files := files;
      vars := map[];
      repeatedLog, mainLog := EmptyLog, EmptyLog;
      new;
      Scan(discovered, fuel);
      ScanCaches(State(map[], EmptyLogs), discovered, fuel);
      ScanLogs(State(map[], EmptyLogs), discovered, fuel);
      ReplayRepeated(fuel);
      repeatedLog, mainLog := EmptyLog, EmptyLog;
    }
  }

  /** Asking twice: for a cached file, or when the first answer did not come
      from the default, the second call gives the same value; for a cached
      file neither call reads, records or caches anything. */
  method GetTwice(c: FileConfig, file: string, key: string, default: Value, fuel: nat)
    returns (first: Value, second: Value)
    requires c.Valid()
    modifies c
    ensures file in old(c.vars) || first != default ==> second == first
    ensures file in old(c.vars) ==>
      c.vars == old(c.vars) && c.mainLog == old(c.mainLog) && c.repeatedLog == old(c.repeatedLog)
  {
    first := c.Get(file, key, default, fuel);
    second := c.Get(file, key, default, fuel);
  }

  /** A file that is neither cached nor passes the existence test yields the
      caller's default, whatever the logs hold. */
  method GetMissingFile(c: FileConfig, file: string, key: string, default: Value, fuel: nat)
    returns (r: Value)
    requires c.Valid() && file !in c.vars && file !in c.existing
    modifies c
    ensures r == default && c.vars == old(c.vars)
  {
    r := c.Get(file, key, default, fuel);
  }

  /** With `app` cached as `['name' => 'TestApp']`, `get('app', 'name')` is
      `TestApp`, and a missing key of the cached file is null, not the default. */
  method CachedFileScenario(c: FileConfig, fuel: nat) returns (name: Value, missing: Value)
    requires c.Valid() && "app" in c.vars && c.vars["app"] == map["name" := Str("TestApp")]
    modifies c
    ensures name == Str("TestApp")
    ensures missing == Null
  {
    name := c.Get("app", "name", Null, fuel);
    missing := c.Get("app", "missing", Str("default"), fuel);
  }
}

=== FILE: php_strings.dfy ===
/**
  The string primitives of PHP that the configuration code relies on:
  `str_replace` with one search string, `explode`/`implode` on one separator
  character, and `rtrim`/`ltrim`/`trim` with one character.
 */
module PhpStrings {

  /** `p` occurs in `s` starting at position `i`. */
  predicate OccursAt(s: string, p: string, i: nat)
  {
    i + |p| <= |s| && s[i..i + |p|] == p
  }

  /** `str_replace(pat, rep, s)`: scans left to right and replaces every
      non-overlapping occurrence; an empty search string changes nothing. */
  function ReplaceAll(s: string, pat: string, rep: string): (r: string)
    ensures |pat| == 0 ==> r == s
    decreases |s|
  {
    if |pat| == 0 || |s| == 0 then s
    else if pat <= s then rep + ReplaceAll(s[|pat|..], pat, rep)
    else [s[0]] + ReplaceAll(s[1..], pat, rep)
  }

  /** A prefix in which no occurrence of `pat` starts is copied unchanged. */
  lemma {:induction false} ReplaceAllSkip(a: string, t: string, pat: string, rep: string)
    requires |pat| > 0
    requires forall i :: 0 <= i < |a| ==> !OccursAt(a + t, pat, i)
    ensures ReplaceAll(a + t, pat, rep) == a + ReplaceAll(t, pat, rep)
    decreases |a|
  {
    if |a| > 0 {
      assert !OccursAt(a + t, pat, 0);
      assert !(pat <= a + t);
      assert (a + t)[1..] == a[1..] + t;
      forall i | 0 <= i < |a[1..]|
        ensures !OccursAt(a[1..] + t, pat, i)
      {
        assert !OccursAt(a + t, pat, i + 1);
        OccursInTail(a + t, pat, i);
      }
      ReplaceAllSkip(a[1..], t, pat, rep);
      calc {
        ReplaceAll(a + t, pat, rep);
        [a[0]] + ReplaceAll(a[1..] + t, pat, rep);
        [a[0]] + (a[1..] + ReplaceAll(t, pat, rep));
        { assert [a[0]] + a[1..] == a; }
        a + ReplaceAll(t, pat, rep);
      }
    } else {
      assert a + t == t;
    }
  }

  /** An occurrence in the tail of `w` is one in `w`, one place further on. */
  lemma OccursInTail(w: string, pat: string, i: nat)
    requires |w| > 0
    ensures OccursAt(w[1..], pat, i) <==> OccursAt(w, pat, i + 1)
  {
    if i + |pat| <= |w[1..]| {
      assert w[1..][i..i + |pat|] == w[i + 1..i + 1 + |pat|];
    }
  }

  /** A leading occurrence of `pat` is replaced. */
  lemma ReplaceAllPrefix(pat: string, x: string, rep: string)
    requires |pat| > 0
    ensures ReplaceAll(pat + x, pat, rep) == rep + ReplaceAll(x, pat, rep)
  {
    assert pat <= pat + x && (pat + x)[|pat|..] == x;
  }

  /** With no occurrence of `pat` at all, `str_replace` is the identity. */
  lemma ReplaceAllAbsent(s: string, pat: string, rep: string)
    requires forall i :: 0 <= i < |s| ==> !OccursAt(s, pat, i)
    ensures ReplaceAll(s, pat, rep) == s
  {
    if |pat| > 0 {
      assert s + "" == s;
      ReplaceAllSkip(s, "", pat, rep);
    }
  }

  /** Replacing one character by another is a pointwise substitution. */
  lemma {:induction false} ReplaceCharAt(s: string, a: char, b: char)
    ensures |ReplaceAll(s, [a], [b])| == |s|
    ensures forall i :: 0 <= i < |s| ==> ReplaceAll(s, [a], [b])[i] == if s[i] == a then b else s[i]
    decreases |s|
  {
    if |s| > 0 {
      ReplaceCharAt(s[1..], a, b);
      if [a] <= s {
        assert s[0] == a;
      } else {
        assert s[0] != a;
      }
    }
  }

  /** Substituting `a` by `b` is undone by substituting `b` by `a`, provided
      `b` did not occur in the original. */
  lemma ReplaceCharInverse(s: string, a: char, b: char)
    requires b !in s
    ensures ReplaceAll(ReplaceAll(s, [a], [b]), [b], [a]) == s
    ensures a != b ==> a !in ReplaceAll(s, [a], [b])
  {
    var t := ReplaceAll(s, [a], [b]);
    ReplaceCharAt(s, a, b);
    ReplaceCharAt(t, b, a);
    assert forall i :: 0 <= i < |s| ==> ReplaceAll(t, [b], [a])[i] == s[i];
  }

  /** `explode(c, s)`: the pieces between the separator characters, always at
      least one (an empty string yields one empty piece). */
  function Explode(s: string, c: char): (parts: seq<string>)
    ensures |parts| >= 1
    ensures forall j :: 0 <= j < |parts| ==> c !in parts[j]
    ensures c !in s ==> parts == [s]
    ensures c in s ==> |parts| >= 2
    decreases |s|
  {
    if |s| == 0 then [""]
    else
      var rest := Explode(s[1..], c);
      if s[0] == c then [""] + rest
      else
        assert s == [s[0]] + s[1..];
        [[s[0]] + rest[0]] + rest[1..]
  }

  /** `implode(d, parts)`: the pieces joined by the separator. */
  function Implode(parts: seq<string>, d: char): string
  {
    if |parts| == 0 then ""
    else if |parts| == 1 then parts[0]
    else parts[0] + [d] + Implode(parts[1..], d)
  }

  /** Splitting on `c` and joining with `d` is the same as replacing every `c` by `d`. */
  lemma {:induction false} ImplodeExplode(s: string, c: char, d: char)
    ensures Implode(Explode(s, c), d) == ReplaceAll(s, [c], [d])
    decreases |s|
  {
    if |s| > 0 {
      var rest := Explode(s[1..], c);
      ImplodeExplode(s[1..], c, d);
      if s[0] == c {
        assert [c] <= s;
        assert Explode(s, c) == [""] + rest;
        assert (Explode(s, c))[1..] == rest;
      } else {
        assert !([c] <= s);
        var parts := Explode(s, c);
        assert parts == [[s[0]] + rest[0]] + rest[1..];
        if |rest| == 1 {
          assert Implode(parts, d) == [s[0]] + rest[0];
        } else {
          assert parts[1..] == rest[1..];
          assert Implode(parts, d) == [s[0]] + rest[0] + [d] + Implode(rest[1..], d);
          assert Implode(rest, d) == rest[0] + [d] + Implode(rest[1..], d);
        }
      }
    }
  }

  /** Joining all pieces but the last and then appending the separator and
      the last piece gives the join of all pieces. */
  lemma {:induction false} ImplodeSplitLast(parts: seq<string>, d: char)
    requires |parts| >= 2
    ensures Implode(parts[..|parts| - 1], d) + [d] + parts[|parts| - 1] == Implode(parts, d)
    decreases |parts|
  {
    if |parts| > 2 {
      ImplodeSplitLast(parts[1..], d);
      assert parts[1..][..|parts| - 2] == parts[..|parts| - 1][1..];
    }
  }

  /** `rtrim(s, c)`: the longest prefix of `s` not ending in `c` such that
      only `c` characters were cut off. */
  function RTrim(s: string, c: char): (r: string)
    ensures r <= s
    ensures |r| == 0 || r[|r| - 1] != c
    ensures forall i :: |r| <= i < |s| ==> s[i] == c
    decreases |s|
  {
    if |s| > 0 && s[|s| - 1] == c then RTrim(s[..|s| - 1], c) else s
  }

  /** `ltrim(s, c)`: the longest suffix of `s` not starting with `c` such that
      only `c` characters were cut off. */
  function LTrim(s: string, c: char): (r: string)
    ensures |r| <= |s| && r == s[|s| - |r|..]
    ensures |r| == 0 || r[0] != c
    ensures forall i :: 0 <= i < |s| - |r| ==> s[i] == c
    decreases |s|
  {
    if |s| > 0 && s[0] == c then LTrim(s[1..], c) else s
  }

  /** `s` is `r` with `i` copies of `c` before it and only `c` after it. */
  predicate PaddedAt(s: string, r: string, c: char, i: nat)
  {
    && i + |r| <= |s| && r == s[i..i + |r|]
    && (forall j :: 0 <= j < i ==> s[j] == c)
    && (forall j :: i + |r| <= j < |s| ==> s[j] == c)
  }

  /** `trim(s, c)`: `c` cut from both ends. */
  function Trim(s: string, c: char): (r: string)
    ensures |r| == 0 || (r[0] != c && r[|r| - 1] != c)
    ensures exists i: nat :: PaddedAt(s, r, c, i)
  {
    var t := RTrim(s, c);
    var r := LTrim(t, c);
    assert |r| > 0 ==> r[|r| - 1] == t[|t| - 1];
    TrimPadded(s, c, t, r);
    r
  }

  /** Cutting `c` from the end, then from the start, leaves `s` padded with `c`. */
  lemma TrimPadded(s: string, c: char, t: string, r: string)
    requires t <= s && forall i :: |t| <= i < |s| ==> s[i] == c
    requires |r| <= |t| && r == t[|t| - |r|..] && forall i :: 0 <= i < |t| - |r| ==> t[i] == c
    ensures PaddedAt(s, r, c, |t| - |r|)
  {
    var i := |t| - |r|;
    assert t == s[..|t|];
    assert r == s[i..i + |r|];
    assert forall j :: 0 <= j < i ==> s[j] == t[j];
  }

  /** `s` ends with `t`. */
  predicate EndsWith(s: string, t: string)
  {
    |t| <= |s| && s[|s| - |t|..] == t
  }
}

=== FILE: provider.dfy ===
/**
  The file provider behind `Config`: a dotted name is mapped to a PHP file
  under the configuration directory, and a missing file yields no values.
 */
module Provider {
  import opened Values
  import opened PhpStrings
  import ConfigPaths

  /** The path `getAll` builds for a dotted name. */
  function ProviderPath(configDir: string, name: string): (p: string)
    ensures |p| == |configDir| + |name| + 5
    ensures p[..|configDir| + 1] == configDir + "/"
    ensures EndsWith(p, ".php")
    ensures forall i :: 0 <= i < |name| ==>
      p[|configDir| + 1 + i] == if name[i] == '.' then '/' else name[i]
    ensures forall i :: |configDir| + 1 <= i < |p| - 4 ==> p[i] != '.'
  {
    ReplaceCharAt(name, '.', '/');
    var p := configDir + "/" + ReplaceAll(name, ".", "/") + ".php";
    assert forall i :: 0 <= i < |name| ==> p[|configDir| + 1 + i] == ReplaceAll(name, ".", "/")[i];
    p
  }

  /** `getAll(name)` over the arrays the files return, keyed by the file a
      path names (`ConfigPaths.Canonical`). */
  function GetAll(configDir: string, files: map<string, map<string, Value>>, name: string)
    : (r: map<string, Value>)
    ensures ConfigPaths.Canonical(ProviderPath(configDir, name)) !in files ==> r == map[]
    ensures ConfigPaths.Canonical(ProviderPath(configDir, name)) in files ==>
      r == files[ConfigPaths.Canonical(ProviderPath(configDir, name))]
  {
    var file := ConfigPaths.Canonical(ProviderPath(configDir, name));
    if file in files then files[file] else map[]
  }

  /** The provider and the file resolver read the same file for a name. */
  lemma ProviderPathIsConfigPath(configDir: string, name: string)
    ensures ProviderPath(configDir, name) == ConfigPaths.ConfigPath(configDir, name)
  {
  }
}

=== FILE: values.dfy ===
/** Dynamically typed configuration values and a small Option type. */
module Values {

  /** The scalar values a configuration file or an environment lookup can yield. */
  datatype Value = Null | Bool(b: bool) | Int(i: int) | Str(s: string)

  datatype Option<+T> = None | Some(value: T)
}

=== FILE: write_back.dfy ===
/**
  `writeFile(name, data)`: a computed array is written to a new file at the
  path the dotted name denotes; an existing file is never overwritten.
 */
module WriteBack {
  import opened Values
  import ConfigPaths

  /** The part of the file system `writeFile` touches: the arrays stored in
      files, keyed by the file a path names (`ConfigPaths.Canonical`), and
      the directories. */
  datatype FileSystem = FileSystem(files: map<string, seq<(string, Value)>>, dirs: set<string>)

  datatype Outcome = Written | AlreadyExists(path: string)

  /** The missing target directory is created first; then the write either
      fails because the file the target path names exists, or stores `data`
      in that file. */
  function WriteFile(fs: FileSystem, configDir: string, name: string, data: seq<(string, Value)>)
    : (r: (FileSystem, Outcome))
    ensures var (dirPath, file) := ConfigPaths.WriteTarget(configDir, name);
      var target := ConfigPaths.Canonical(file);
      && r.0.dirs == fs.dirs + {dirPath}
      && (target in fs.files ==> r.1 == AlreadyExists(file) && r.0.files == fs.files)
      && (target !in fs.files ==>
            && r.1 == Written
            && r.0.files.Keys == fs.files.Keys + {target}
            && r.0.files[target] == data
            && forall p :: p in fs.files ==> r.0.files[p] == fs.files[p])
  {
    var (dirPath, file) := ConfigPaths.WriteTarget(configDir, name);
    var dirs := if dirPath != "" && dirPath !in fs.dirs then fs.dirs + {dirPath} else fs.dirs;
    var target := ConfigPaths.Canonical(file);
    if target in fs.files then (FileSystem(fs.files, dirs), AlreadyExists(file))
    else (FileSystem(fs.files[target := data], dirs), Written)
  }

  /** Whatever the name, a write fails exactly when the file that reading
      the name loads exists, and a successful write stores the data in it. */
  lemma WriteLandsAtConfigPath(fs: FileSystem, configDir: string, name: string, data: seq<(string, Value)>)
    ensures var loads := ConfigPaths.Canonical(ConfigPaths.ConfigPath(configDir, name));
      var (fs1, out) := WriteFile(fs, configDir, name, data);
      && (loads in fs.files <==> out.AlreadyExists?)
      && (loads !in fs.files ==> loads in fs1.files && fs1.files[loads] == data)
  {
    ConfigPaths.WriteTargetSameFile(configDir, name);
  }

  /** An undotted name whose file already exists, as `configDir/name.php`,
      is refused although the target string reads `configDir//name.php`. */
  lemma WriteUndottedSeesExisting(fs: FileSystem, configDir: string, name: string, data: seq<(string, Value)>)
    requires '.' !in name
    requires ConfigPaths.Canonical(configDir + "/" + name + ".php") in fs.files
    ensures WriteFile(fs, configDir, name, data).1 == AlreadyExists(configDir + "//" + name + ".php")
    ensures WriteFile(fs, configDir, name, data).0.files == fs.files
  {
    ConfigPaths.WriteTargetIsConfigPath(configDir, name);
    assert configDir + "//" + name + ".php" == configDir + "//" + (name + ".php");
    assert configDir + "/" + name + ".php" == configDir + "/" + (name + ".php");
    ConfigPaths.CanonicalDoubleSlash(configDir, name + ".php");
  }

  /** Writing the same name twice fails the second time and leaves the
      first write's contents in place. */
  lemma WriteIsNotRepeatable(fs: FileSystem, configDir: string, name: string,
                             first: seq<(string, Value)>, second: seq<(string, Value)>)
    ensures var (fs1, _) := WriteFile(fs, configDir, name, first);
      var (fs2, out) := WriteFile(fs1, configDir, name, second);
      out == AlreadyExists(ConfigPaths.WriteTarget(configDir, name).1) && fs2.files == fs1.files
  {
  }
}
